=== FILE: README.md ===
# RNTalkify core in Dafny

A Dafny model of the signalling and chat core of RNTalkify, a React Native video-call and chat app. It covers:

- **Relay** (`relay.dfy`): the socket.io server's `connection` handler. A registry maps rooms to their member sockets. A connecting socket enters the room named by its own id, as socket.io arranges. `join` adds a socket to a room. `offer`, `answer` and `ice-candidate` fan out to the other members of a room with a `from` field added. `chat-message` fans out without one. `disconnect` only logs, while socket.io's own leave-all on disconnect is modelled.
- **Call** (`call.dfy`): the call/chat controller of both `VideoCallScreen` versions. The React state and refs become one immutable `Client` record. Every socket handler, peer-connection callback and button is a pure function returning the next record and the socket emissions.
- **Session** (`session.dfy`): two or three clients composed with the relay. It covers the offer/answer handshake, a candidate that arrives too early, and chat fan-out.
- **Color** (`color.dfy`): the chat screen's `stringToColor`. JavaScript's int32 arithmetic is written out explicitly, and the hash is proved to reduce to the 31-multiplier hash modulo 2^32.
- **Chat** (`chat.dfy`): the room chat screen's send guard, frame appending, history reversal and day-separator scan.
- **Login**, **CreateRoom** and **Rooms** (`login.dfy`, `createroom.dfy`, `rooms.dfy`): the account and room screens. HTTP replies are inputs to pure decision functions. The room list is sorted with a stable newest-first insertion sort.
- **Draggable** (`draggable.dfy`): the draggable overlay's start position and release clamp.
- **Shared modules**:
  - `Js` (`js.dfy`): ECMAScript `trim` and its whitespace set;
  - `Wrappers` (`wrappers.dfy`): `Option` and `Result`;
  - `Navigation` (`navigation.dfy`): navigation parameters and alerts.

Behaviour of the code worth knowing, all of it modelled as written:

- There is no queue of pending ICE candidates. A candidate that arrives before a peer connection exists is dropped (`Call.OnCandidate`, `Session.EarlyCandidateIsLost`).
- There is no call state machine:
  - an incoming answer sets `isCalling` even when there is no peer connection; with one, only after `setRemoteDescription` accepts it, which it does only while the connection awaits an answer;
  - `startCall` never sets it;
  - nothing ever clears it, not even `endCall`.
- There is no `end-call` message. A disconnect does not end the other side's call. The relay's disconnect handler only logs.
- The `offer` handler is registered once at mount, so it calls the first render's `createPeerConnection`. That function always requests audio and video, whatever the toggles say now (`Call.AnswerIgnoresMute`).
- A failed `getUserMedia` has already replaced the peer connection, and the old one is not closed.
- `endCall` in the `src` screen only stops the local tracks.
- `createPeerConnection` replaces the local stream without stopping the old one. A second Start Call press, or an offer after a start, leaves the earlier stream capturing where no toggle and no `endCall` reach it (`Call.ReplacedStreamOutlivesEndCall`).
- `startCall` and the `offer` handler suspend at `await getUserMedia` after the new peer connection is already in the ref. Other handlers run in that window:
  - a toggle there cannot reach the tracks still to come (`Call.ToggleWhileAwaitingMedia`);
  - a relayed candidate reaches a connection with no remote description (`Call.CandidateWhileAwaitingMedia`);
  - an overlapping run takes over the ref (`Call.OverlappingRunsShareThePeer`).

## Model

| member | source | states |
|---|---|---|
| Relay.FanOut | node_js/index.js:27-44 | `socket.to(room)` delivers one copy of the envelope to exactly the members of the room other than the sender |
| Relay.JoinRoom | node_js/index.js:19-22 | `join` adds the socket to the named room (creating it) and leaves every other room's membership as it was |
| Relay.LeaveAll | node_js/index.js:47-49 | on disconnect the socket leaves every room, and no other socket's membership changes |
| Relay.Handle | node_js/index.js:15-50 | no event is ever delivered back to its sender; only connection, `join` and `disconnect` change room membership |
| Relay.JoinAddsSender | node_js/index.js:19-22 | `join` delivers nothing and adds exactly the sender to exactly the named room |
| Relay.JoinIdempotent | node_js/index.js:19-22 | joining a room one is already in changes nothing; joining twice equals joining once |
| Relay.SignalFanOut | node_js/index.js:25-38 | offer/answer/candidate reach every other member of `data.room` and nobody else, carrying the payload field unchanged plus `from` = sender, without the room |
| Relay.ChatFanOut | node_js/index.js:41-45 | chat reaches every other member of the room and nobody else, carrying `message` and `sender` unchanged and no `from` |
| Relay.LonelyRoomDropsSilently | node_js/index.js:27-44 | emitting into a room with no other member delivers nothing and changes nothing |
| Relay.SenderMembershipIrrelevant | node_js/index.js:25-45 | deliveries do not depend on whether the sender has joined or left the room |
| Relay.UnhandledIsNoop | node_js/index.js:15-50 | an event whose name has no listener (e.g. `screenshare`) delivers nothing and changes nothing |
| Relay.DisconnectIsSilent | node_js/index.js:47-49 | disconnect delivers nothing and leaves the socket in no room |
| Relay.DepartedReceivesNothing | node_js/index.js:25-49 | after a socket has left, no routed event reaches it |
| Relay.MembershipHistory | node_js/index.js:15-50 | after any event trace, a socket is in a room exactly when it joined that room, or connected if the room bears its id, at some step and did not disconnect afterwards |
| Relay.SocketIdRoomReachesIt | node_js/index.js:15-44 | once a socket has connected, an event another client routes to its id reaches it alone |
| Call.Mount | screens/VideoCallScreen.jsx:39-40 | mounting emits exactly one `join` for `room1` and starts with no peer connection, no call and both media flags on |
| Call.Kinds | screens/VideoCallScreen.jsx:120-122 | the kinds added to the peer connection are those of the stream's tracks, one for one |
| Call.NewPeer | screens/VideoCallScreen.jsx:110-111 | before any await a fresh, empty peer connection with a new id replaces the one in the ref, and nothing else changes |
| Call.AttachMedia | screens/VideoCallScreen.jsx:113-122 | once `getUserMedia` settles, a granted stream becomes the local stream and its kinds are appended to what the connection in the ref sends; the replaced stream's tracks join the orphaned tracks unstopped; a rejection changes nothing |
| Call.CreatePeerConnection | screens/VideoCallScreen.jsx:110-122 | a fresh peer connection always replaces the old one; granted media becomes the local stream and all its tracks are sent, while the stream it replaces is orphaned; on rejection nothing else changes |
| Call.StartCallIsCreatePeerConnection | screens/VideoCallScreen.jsx:141-148 | `startCall` run without interruption is `createPeerConnection` followed, on success, by the offer as local description |
| Call.ResumeStartCall | screens/VideoCallScreen.jsx:113-148 | when `getUserMedia` settles, granted tracks are added to whatever connection the ref holds by then, the offer becomes its local description and one `offer` goes to `room1`; a rejection ends the call attempt with nothing emitted; nothing else changes |
| Call.StartCall | screens/VideoCallScreen.jsx:141-148 | run without interruption, media is requested under the current flags; if granted, the new peer sends exactly those tracks with the offer as its local description and one `offer` goes to `room1`; if rejected, nothing is emitted; only the peer, the counter, the stream and the orphaned tracks change, so `isCalling` is untouched |
| Call.PressStartCall | screens/VideoCallScreen.jsx:204 | the Start Call button does nothing while a call is up and otherwise starts a call |
| Call.ResumeOffer | screens/VideoCallScreen.jsx:48-56 | when the offer handler's `getUserMedia` settles, granted tracks are added to the connection the ref holds by then, which takes the offer as remote and the answer as local description; one `answer` goes to `room1` and `isCalling` is set; a rejection ends the handler |
| Call.OnOffer | screens/VideoCallScreen.jsx:42-56 | run without interruption, an offer builds a new peer connection under audio+video; if media is granted it becomes the local stream, the previous stream is orphaned, the peer sends its tracks with the offer remote and the answer local, one `answer` goes to `room1` and `isCalling` is set; if rejected, nothing is emitted; nothing else changes |
| Call.OnOfferIsCreatePeerConnection | screens/VideoCallScreen.jsx:42-56 | the offer handler run without interruption is `createPeerConnection` followed, on success, by both descriptions and `isCalling` |
| Call.OnAnswer | screens/VideoCallScreen.jsx:58-64 | with no peer connection an answer only sets `isCalling`; with one awaiting an answer it becomes the remote description and `isCalling` is set; with one not awaiting an answer `setRemoteDescription` rejects and nothing changes |
| Call.SecondAnswerIsIgnored | screens/VideoCallScreen.jsx:58-64 | once an answer has been applied to a connection, a further answer changes nothing |
| Call.AnswerAfterRefusedMediaIsRejected | screens/VideoCallScreen.jsx:58-64 | after a call attempt whose media was refused, an answer is rejected by the fresh connection and the screen does not enter a call |
| Call.OnCandidate | screens/VideoCallScreen.jsx:66-75 | without a peer connection the candidate is dropped; a failed add changes nothing; a successful one is appended to the accepted candidates |
| Call.OnChat | screens/VideoCallScreen.jsx:77-81 | a received chat line is appended at the end of the list, and nothing else changes |
| Call.Receive | screens/VideoCallScreen.jsx:42-81 | of the four handlers only the offer handler emits (its answer) or builds a peer connection; only a chat line changes the list; none touches the toggles or the chat input |
| Call.OnLocalCandidate | screens/VideoCallScreen.jsx:125-129 | a local candidate is forwarded as `ice-candidate` to `room1` only when it is non-null |
| Call.OnTrack | screens/VideoCallScreen.jsx:132-137 | a track event with a stream shows its first stream; one without changes nothing |
| Call.OnTrackList | src/screens/VideoCallScreen.jsx:143-148 | a track event with streams stores the whole list; one without changes nothing |
| Call.TrackVariantsAgree | src/screens/VideoCallScreen.jsx:143-148 | the two screens agree on whether a remote stream is shown, the root screen keeps the first stream of the `src` screen's list, and neither changes anything else |
| Call.Toggle | screens/VideoCallScreen.jsx:162-177 | the flag is negated and every track of that kind in the current local stream takes the new value; tracks of the other kind, orphaned tracks, the peer and the call are untouched |
| Call.ToggleKeepsSync | src/screens/VideoCallScreen.jsx:189-204 | if every track is enabled exactly when its kind's flag is on, toggling keeps it so |
| Call.ToggleTwiceRestores | screens/VideoCallScreen.jsx:162-177 | while the tracks follow the flags, toggling the same kind twice restores the exact state |
| Call.StartCallKeepsSync | screens/VideoCallScreen.jsx:110-117 | a call started under an honest media source, with nothing run while it awaits media, leaves the tracks following the flags |
| Call.ToggleWhileAwaitingMedia | screens/VideoCallScreen.jsx:113-177 | a mute pressed while `startCall` awaits media turns the flag off, yet the call sends an enabled audio track, even from an honest media source |
| Call.CandidateWhileAwaitingMedia | screens/VideoCallScreen.jsx:42-75 | a candidate relayed while the offer handler awaits media is handed to a connection with no remote description, and the outcome of that add is what the connection keeps |
| Call.OverlappingRunsShareThePeer | screens/VideoCallScreen.jsx:42-148 | an offer handled while `startCall` awaits media takes over the ref; `startCall` then adds its tracks to the answering connection and overwrites its local answer with its own offer, orphaning the answer's stream |
| Call.AnswerIgnoresMute | src/screens/VideoCallScreen.jsx:46-60 | with audio toggled off, answering an offer still acquires and sends an enabled audio track, so the tracks no longer follow the flags |
| Call.SendChat | screens/VideoCallScreen.jsx:151-159 | blank input (per `trim`) does nothing; otherwise the untrimmed text is emitted with sender `User`, one `Me` entry is appended and the input is cleared |
| Call.TypedLineSentOnce | screens/VideoCallScreen.jsx:151-159 | a typed line is emitted exactly when it is not blank, a blank one stays in the input, and a second press sends nothing |
| Call.EndCall | src/screens/VideoCallScreen.jsx:171-186 | without a local stream it faults; otherwise every track of the current local stream is stopped and nothing else changes, so orphaned tracks stay live |
| Call.ReplacedStreamOutlivesEndCall | src/screens/VideoCallScreen.jsx:115-204 | the Start Call control stays enabled until an answer arrives (:288), so pressing it twice orphans the first stream: its live, enabled tracks are reached by neither a mute nor `endCall` |
| Call.EndedCallCannotRestart | src/screens/VideoCallScreen.jsx:171-186 | ending a call leaves `isCalling` set and the peer in place, so the Start Call control stays disabled and pressing it does nothing |
| Call.EndCallIdempotent | src/screens/VideoCallScreen.jsx:177 | ending a call twice is ending it once |
| Call.StopAll | src/screens/VideoCallScreen.jsx:177 | every track is stopped, in place and in order |
| Call.FirstVideo | src/screens/VideoCallScreen.jsx:208 | the index of the first video track, or none exactly when there is no video track |
| Call.ToggleCamera | src/screens/VideoCallScreen.jsx:206-210 | without a local stream it does nothing; otherwise the camera flag flips and, when there is a video track, the first one is asked for `environment` when leaving the front camera and `user` when leaving the back one |
| Call.ToggleCameraTwice | src/screens/VideoCallScreen.jsx:206-210 | switching twice restores the state and asks the same track for opposite facings |
| Session.RoutedToPeer | node_js/index.js:25-45 | with exactly two sockets in the room, whatever one routes goes to the other alone |
| Session.Handshake | src/screens/VideoCallScreen.jsx:46-68 | A starts a call, B answers through the relay, A applies the answer: both are in a call, and each holds the other's description as its remote one |
| Session.MountedHandshake | screens/VideoCallScreen.jsx:39-64 | two freshly mounted screens share the demo room through the relay, and the handshake takes both into a call |
| Session.EarlyCandidateIsLost | screens/VideoCallScreen.jsx:66-75 | a candidate relayed to a peer that has no peer connection yet is dropped for good |
| Session.ChatReachesOthers | screens/VideoCallScreen.jsx:151-159 | a chat line reaches the two other members, appended as sent by `User`, and the sender keeps a `Me` copy |
| Js.SkipForward | screens/ChatScreen.jsx:62-65 | the scan stops at the first non-whitespace character, having passed only whitespace |
| Js.SkipBackward | screens/ChatScreen.jsx:62-65 | the scan stops just after the last non-whitespace character, having passed only whitespace |
| Js.Trim | screens/ChatScreen.jsx:62-65 | `trim` cuts off exactly a blank prefix and a blank suffix, and what remains neither starts nor ends with whitespace |
| Js.TrimShape | screens/ChatScreen.jsx:62 | `trim` is empty exactly when the string is all whitespace |
| Js.TrimUnique | screens/ChatScreen.jsx:65 | any split into blank prefix, piece with non-whitespace ends and blank suffix has `trim` equal to that piece |
| Js.TrimIdempotent | screens/ChatScreen.jsx:65 | trimming a trimmed string changes nothing |
| Color.CharUnits | screens/ChatScreen.jsx:78 | `charCodeAt` sees one code unit for a basic-plane character and otherwise a high/low surrogate pair that encodes the character |
| Color.Utf16 | screens/ChatScreen.jsx:77 | `str.length` counts UTF-16 code units: between one and two per character |
| Color.ToInt32 | screens/ChatScreen.jsx:78 | the 32-bit two's-complement value congruent to its argument modulo 2^32 |
| Color.JsHash | screens/ChatScreen.jsx:76-79 | the loop's `hash` moves by at most 2^31 + 2^16 per code unit |
| Color.Hash31 | screens/ChatScreen.jsx:76-79 | the reference 31-multiplier hash stays within 32 bits |
| Color.StepAgrees | screens/ChatScreen.jsx:78 | modulo 2^32, one JavaScript loop step is `31·h + code unit` |
| Color.JsHashIsHash31 | screens/ChatScreen.jsx:76-79 | the loop's `hash` is congruent to the 31-multiplier hash modulo 2^32 |
| Color.JsHashExact | screens/ChatScreen.jsx:76-79 | for strings under 2^21 code units every value `hash` takes is an integer below 2^53 in magnitude |
| Color.ByteAt | screens/ChatScreen.jsx:82 | `(hash >> 8i) & 0xff` is a byte |
| Color.ByteAtIsByteOfMod | screens/ChatScreen.jsx:82 | `(hash >> 8i) & 0xff` is byte i of hash modulo 2^32 |
| Color.Hex2 | screens/ChatScreen.jsx:83 | `toString(16).padStart(2, "0")` writes every byte as exactly two lowercase hex digits |
| Color.Hex2RoundTrip | screens/ChatScreen.jsx:83 | the two digits read back as the byte |
| Color.HexDigitRoundTrip | screens/ChatScreen.jsx:83 | each hex digit reads back as its value |
| Color.StringToColor | screens/ChatScreen.jsx:75-86 | the colour is `#` followed by exactly six lowercase hex digits |
| Color.ColorEncodesHash | screens/ChatScreen.jsx:77-84 | the six digits spell the low three bytes of the 31-multiplier hash, least significant first |
| Color.EmptyIsBlack | screens/ChatScreen.jsx:76-85 | the empty string is `#000000` |
| Color.ColorFor | screens/ChatScreen.jsx:109 | a message without a username throws; otherwise its colour is `stringToColor` of the name |
| Chat.SendMessage | screens/ChatScreen.jsx:61-70 | with no socket or blank input nothing happens; while the socket is connecting `send` throws and the input stays; otherwise the frame `{event: "message", content: input.trim()}` is sent and the input cleared |
| Chat.SentContentIsTrimmed | screens/ChatScreen.jsx:65 | the content sent is non-empty with no whitespace at either end, and sending it as typed gives the same frame |
| Chat.OnFrame | screens/ChatScreen.jsx:31-39 | a parsed frame is appended at the end; an unparseable one changes nothing; appending to an undefined list throws |
| Chat.FramesAppendParsed | screens/ChatScreen.jsx:31-39 | over any run of frames a list gains exactly the parsed messages, in order, at its end; an undefined list throws at the first parsed one |
| Chat.Reverse | screens/ChatScreen.jsx:21 | `reverse` puts item i at position length−1−i |
| Chat.ReverseInvolutive | screens/ChatScreen.jsx:21 | reversing twice gives the list back |
| Chat.ApplyHistory | screens/ChatScreen.jsx:19-22 | a fetched list replaces the shown one, reversed; `null` makes it undefined; a non-array or a failed fetch changes nothing |
| Chat.HistoryDropsEarlierFrames | screens/ChatScreen.jsx:21 | frames received before the history response are gone once it lands |
| Chat.DayOf | screens/ChatScreen.jsx:98 | an item's day is its `created_at` day, and today when it has none |
| Chat.Separators | screens/ChatScreen.jsx:14-100 | in one in-order pass over the items, a separator precedes item i exactly when its day (per `DayOf`) differs from the previous item's, the first item is compared with today, and the separator is labelled with the item's own day |
| Chat.UndatedItemsHaveNoSeparator | screens/ChatScreen.jsx:14-100 | messages without `created_at` count as today's, so a list of them draws no separator |
| Login.Normalise | src/screens/LoginScreen.jsx:11 | the registered name has the same length, no space, and every non-space character (tabs included) in place |
| Login.NormaliseFixpoints | src/screens/LoginScreen.jsx:11 | a name is unchanged exactly when it has no space, and normalising is idempotent |
| Login.HandleLogin | src/screens/LoginScreen.jsx:8-25 | a blank name sends nothing; otherwise the normalised name is posted; a JSON reply navigates with the raw name and clears the input; a failure does neither |
| Login.NavigatedNameMatchesPosted | src/screens/LoginScreen.jsx:11-20 | the name navigated with is non-blank and normalises to exactly the registered name |
| CreateRoom.HandleCreateRoom | screens/CreateRoomScreen.jsx:9-35 | a blank name alerts and sends nothing; otherwise the untrimmed name is posted; a duplicate reply alerts; any other object goes back and opens Chat with the new id and name; a failure only logs |
| CreateRoom.CreatedRoomOpensLikeSelection | screens/CreateRoomScreen.jsx:19-28 | an alert and a Chat navigation never happen together, and a created room opens the same chat as pressing it in the room list |
| Rooms.Insert | screens/RoomsScreen.jsx:15-18 | inserting adds exactly one room to the list |
| Rooms.InsertKeepsOrder | screens/RoomsScreen.jsx:15-18 | inserting into a newest-first list keeps it newest first |
| Rooms.SortNewestFirst | screens/RoomsScreen.jsx:15-18 | the sorted list is newest first and a permutation of the fetched rooms |
| Rooms.InsertKeepsTies | screens/RoomsScreen.jsx:15-18 | inserting puts the new room before the other rooms of the same age, in order |
| Rooms.SortIsStable | screens/RoomsScreen.jsx:15-18 | rooms created at the same time keep their fetched order |
| Rooms.FetchRooms | screens/RoomsScreen.jsx:8-23 | an array reply is shown sorted newest first as a permutation; a failure leaves the list empty |
| Rooms.SelectRoom | screens/RoomsScreen.jsx:38-44 | pressing a room passes its id and name and the username unchanged |
| Rooms.TopRoomIsNewest | screens/RoomsScreen.jsx:15-44 | the top room is a newest fetched room, and pressing it navigates with its id and name and the unchanged username |
| Draggable.InitialPosition | src/components/DraggableView.jsx:6 | each coordinate is the prop when given, 5 otherwise |
| Draggable.ClampAxis | src/components/DraggableView.jsx:21-22 | below 0 snaps to 5, above the limit clamps to it, and otherwise stays |
| Draggable.ClampBounds | src/components/DraggableView.jsx:21-22 | in a window at least 5 wide a drop lands inside it; in a narrower one a negative candidate lands past the edge |
| Draggable.Mount | src/components/DraggableView.jsx:5-10 | the captured and drawn positions both start at the initial position, with no pan, and the window size is captured |
| Draggable.Move | src/components/DraggableView.jsx:13-16 | a move changes only the pan offset, which follows the gesture |
| Draggable.Shown | src/components/DraggableView.jsx:37-40 | the view is drawn at `lastPosition` shifted by the pan, and at `lastPosition` when at rest |
| Draggable.Release | src/components/DraggableView.jsx:17-27 | the drop is the captured position plus the gesture, each axis clamped on its own against the captured window size, and the pan is reset |
| Draggable.ReleaseSettles | src/components/DraggableView.jsx:21-26 | after a release the view is drawn where it was dropped, inside a window at least 5 wide and high |
| Draggable.DropsForgetEarlierDrops | src/components/DraggableView.jsx:10-23 | after any series of drags, the position is the initial one plus the latest gesture, clamped |
| Draggable.SecondDragJumps | src/components/DraggableView.jsx:19-40 | mid-drag the view is drawn from the last drop, but it lands relative to the start, so a second drag jumps |

## Left out

- WebRTC internals are out of scope:
  - descriptors and candidates are opaque values;
  - `getUserMedia` is a parameter that grants tracks or rejects;
  - failures of `createOffer`, `createAnswer` and `set*Description` are not modelled, except that an answer is rejected by a connection not awaiting one;
  - the offer/answer and ICE processing happens inside react-native-webrtc, which is not part of this model.
- The socket.io and WebSocket transports, their reconnection options, the Express app, CORS, the `/` route and the port. The model assumes in-order delivery and does not prove FIFO ordering.
- HTTP requests to the chat API. Their replies are inputs (`Reply`, `History`).
- Incoming-call notifications (notifee) and `AppState` tracking are left out. Waiting for the notification before answering is assumed to succeed; a rejected `displayCallNotification` would abort the answer, and that case is not modelled. The InCallManager speakerphone timer is left out too.
- `startScreenShare` and its `screenshare` emission are left out, because the code has no working implementation. The relay's handling of an unknown event is modelled by `Relay.UnhandledIsNoop`.
- Unmount cleanup (socket disconnect, peer-connection close) is left out. The relay side of a disconnect is modelled.
- Chat.SendMessage: once the socket is closing or closed, the frame is handed to `send` and the input cleared. What the native WebSocket module then does with the frame is not modelled.
- Chat.Separators: assumes `renderItem` runs once per item, in list order, within one render. The code keeps the previous day in a render-scoped variable, so a virtualised FlatList that renders the list window by window, or re-renders one cell, can draw separators differently. That rendering order is not modelled.
- `Date.now()` message ids, moment date formatting and `Date` parsing. Days are abstract strings and room timestamps abstract integers, so an unparseable `created_at` (NaN in the comparator) is not modelled.
- Rendering, styles, FlatList and `Dimensions`. The overlay's drawn position is modelled by `Draggable.Shown`.
- App.jsx navigation wiring, the iOS AppDelegate, and `screens/LoginScreen.jsx`, whose trim guard and navigation the `src` login screen covers.
- The loose `==` of `newRoom?.detail` against the conflict text is modelled as string equality. A non-string `detail` is not modelled.
- The `room` field of a relayed event is taken as given. An event without one (which socket.io would send to the `undefined` room) is not modelled.
- Color.StringToColor: computes with exact integers, whereas JavaScript uses doubles. `Color.JsHashExact` bounds every intermediate value below 2^53 for names under 2^21 UTF-16 code units. Double arithmetic on integers in that range is exact under IEEE 754, which is not itself modelled. Longer names are not modelled faithfully.
- Call.StartCall and Call.OnOffer: the emission is stated for a successful negotiation only. A rejected `createOffer` or `setLocalDescription` is not modelled.
- Concurrency of the async handlers: `startCall` and the `offer` handler are split at `await getUserMedia`, where their connection is already in the ref. Their later awaits (`createOffer`, `createAnswer`, `set*Description`, the notification) are treated as uninterrupted, and every other handler runs to completion.
- Call.StartCallKeepsSync: holds only when nothing runs while `startCall` awaits media. A toggle in that window breaks it, as `Call.ToggleWhileAwaitingMedia` shows.
- Call.OnAnswer: whether a connection awaits an answer is read off the descriptions the model records (a local one and no remote one). The full signalling-state machine of react-native-webrtc is not modelled.
- JavaScript numbers in the draggable overlay are modelled as `real`, so double rounding is not modelled. Strings are Dafny `string`s of Unicode scalar values, so a JavaScript string holding a lone surrogate cannot be expressed.

=== FILE: call.dfy ===
/**
 * The call/chat controller of the video-call screen, in its two versions (the
 * root screen mounted by the app and its `src` variant). React state and refs
 * become one `Client` record; every socket handler, peer-connection callback
 * and button becomes a pure function from the record and the event to the
 * next record and the socket emissions it makes.
 *
 * WebRTC is opaque: descriptors and candidates are `Value`s, and media
 * acquisition is a parameter that grants tracks or rejects.
 */
module Call {
  import opened Wrappers
  import opened Js
  import Relay

  /** The fixed demo room both screens join and emit into. */
  const DemoRoom: Relay.RoomId := "room1"
  /** The `sender` field of every chat message the screen emits. */
  const ChatSender: string := "User"
  /** The sender label of the screen's own chat entries. */
  const OwnLabel: string := "Me"

  datatype Kind = Audio | Video

  /** A local media track; `stopped` once `track.stop()` has run. */
  datatype Track = Track(kind: Kind, enabled: bool, stopped: bool)

  /** A remote MediaStream, known only by identity. */
  type StreamId = nat

  /** The `facingMode` constraint a camera switch asks for. */
  datatype Facing = FacingUser | FacingEnvironment

  /** An RTCPeerConnection as far as signalling observes it: the kinds of the
      tracks added to it, the descriptions applied to it and the remote
      candidates it accepted, in order. */
  datatype Peer = Peer(id: nat, sending: seq<Kind>, local: Option<Value>, remote: Option<Value>, candidates: seq<Value>)

  /** One line of the chat list (the `Date.now()` key is left out). */
  datatype Entry = Entry(text: Value, sender: Value)

  /** The screen's state: `peer` is `peerConnectionRef.current` and `created`
      counts the peer connections built so far, which makes "fresh" observable.
      `orphaned` holds the tracks of local streams that a later
      `setLocalStream` replaced: nothing stops them and no toggle reaches them. */
  datatype Client = Client(
    peer: Option<Peer>,
    created: nat,
    localStream: Option<seq<Track>>,
    orphaned: seq<Track>,
    remoteStreams: seq<StreamId>,
    isCalling: bool,
    audioOn: bool,
    videoOn: bool,
    frontCamera: bool,
    messages: seq<Entry>,
    chatInput: string)

  /** The next state and the socket emissions, in order. */
  datatype Reaction = Reaction(next: Client, emitted: seq<Relay.Event>)

  /** `mediaDevices.getUserMedia({audio, video})`: the granted tracks, or a rejection. */
  type Media = (bool, bool) -> Option<seq<Track>>

  /** What the WebRTC stack answers while a relayed envelope is handled. */
  datatype Rtc = Rtc(media: Media, answer: Value, addCandidateOk: bool)

  /** Every peer connection ever built has an id below `created`. */
  predicate Valid(c: Client) {
    c.peer.Some? ==> c.peer.value.id < c.created
  }

  /** The state of a freshly mounted screen. */
  function Initial(): Client {
    Client(None, 0, None, [], [], false, true, true, true, [], "")
  }

  /** Mounting connects and emits exactly one `join` for the demo room, with no
      call, no peer connection and both media flags on. */
  function Mount(): (r: Reaction)
    ensures r.emitted == [Relay.Join(DemoRoom)]
    ensures Valid(r.next) && r.next.peer.None? && !r.next.isCalling
    ensures r.next.audioOn && r.next.videoOn && r.next.messages == []
  {
    Reaction(Initial(), [Relay.Join(DemoRoom)])
  }

  /** The result of `createPeerConnection`: the next state and whether media was acquired. */
  datatype Setup = Setup(next: Client, acquired: bool)

  function Kinds(ts: seq<Track>): (ks: seq<Kind>)
    ensures |ks| == |ts| && forall i :: 0 <= i < |ts| ==> ks[i] == ts[i].kind
  {
    if ts == [] then [] else [ts[0].kind] + Kinds(ts[1..])
  }

  /** The first half of `createPeerConnection`, up to `await getUserMedia`: a
      new connection replaces the old one in the ref (the old one is not
      closed). The handler is suspended there, and other handlers can run
      before the media arrives. */
  function NewPeer(c: Client): (r: Client)
    ensures Valid(c) ==> Valid(r)
    ensures r.peer == Some(Peer(c.created, [], None, None, [])) && r.created == c.created + 1
    ensures r == c.(peer := r.peer, created := r.created)
  {
    c.(peer := Some(Peer(c.created, [], None, None, [])), created := c.created + 1)
  }

  /** The tracks still capturing outside the local stream once `granted`
      settles: a granted stream orphans the current one without stopping it. */
  function Orphans(c: Client, granted: Option<seq<Track>>): seq<Track>
  {
    if granted.Some? && c.localStream.Some? then c.orphaned + c.localStream.value else c.orphaned
  }

  /** The second half, once `getUserMedia` settles: granted tracks become the
      local stream and are added to whichever connection the ref holds by then.
      `setLocalStream` replaces the previous stream without stopping its tracks. */
  function AttachMedia(c: Client, granted: Option<seq<Track>>): (r: Client)
    requires c.peer.Some?
    ensures granted.None? ==> r == c
    ensures granted.Some? ==>
      && r.localStream == granted
      && r.peer == Some(c.peer.value.(sending := c.peer.value.sending + Kinds(granted.value)))
    ensures granted.Some? && c.localStream.Some? ==> r.orphaned == c.orphaned + c.localStream.value
    ensures c.localStream.None? ==> r.orphaned == c.orphaned
    ensures r == c.(peer := r.peer, localStream := r.localStream, orphaned := r.orphaned)
  {
    match granted
    case Some(tracks) =>
      c.(localStream := granted, orphaned := Orphans(c, granted),
         peer := Some(c.peer.value.(sending := c.peer.value.sending + Kinds(tracks))))
    case None => c
  }

  /** `createPeerConnection` run to completion: a fresh peer connection always
      replaces the old one; on success the stream becomes the local stream and
      all its tracks are added; on rejection nothing else happens. */
  function CreatePeerConnection(c: Client, audio: bool, video: bool, media: Media): (s: Setup)
    ensures s.acquired <==> media(audio, video).Some?
    ensures s.next.created == c.created + 1
    ensures s.next.peer.Some? && s.next.peer.value.id == c.created
    ensures s.next.peer.value.local.None? && s.next.peer.value.remote.None? && s.next.peer.value.candidates == []
    ensures s.next.localStream == if s.acquired then media(audio, video) else c.localStream
    ensures s.next.peer.value.sending == if s.acquired then Kinds(media(audio, video).value) else []
    ensures s.next.orphaned == Orphans(c, media(audio, video))
    ensures s.next == c.(peer := s.next.peer, created := s.next.created, localStream := s.next.localStream, orphaned := s.next.orphaned)
  {
    Setup(AttachMedia(NewPeer(c), media(audio, video)), media(audio, video).Some?)
  }

  /** `startCall` resumed when its `getUserMedia` settles. On success the tracks
      are added to the connection the ref holds now, the offer becomes its local
      description and one `offer` goes to the demo room; a rejection ends the
      handler with nothing emitted. */
  function ResumeStartCall(c: Client, granted: Option<seq<Track>>, offer: Value): (r: Reaction)
    requires c.peer.Some?
    ensures granted.None? ==> r == Reaction(c, [])
    ensures granted.Some? ==>
      && r.emitted == [Relay.Offer(DemoRoom, offer)]
      && r.next.localStream == granted
      && r.next.peer == Some(c.peer.value.(sending := c.peer.value.sending + Kinds(granted.value), local := Some(offer)))
    ensures r.next.orphaned == Orphans(c, granted)
    ensures r.next == c.(peer := r.next.peer, localStream := r.next.localStream, orphaned := r.next.orphaned)
  {
    if granted.Some? then
      var n := AttachMedia(c, granted);
      Reaction(n.(peer := Some(n.peer.value.(local := Some(offer)))), [Relay.Offer(DemoRoom, offer)])
    else
      Reaction(c, [])
  }

  /** `startCall` run without interruption: a new peer connection with media
      requested under the flags read when the button is pressed; on success the
      offer becomes the local description and exactly one `offer` is emitted to
      the demo room. `isCalling` is left alone. */
  function StartCall(c: Client, media: Media, offer: Value): (r: Reaction)
    ensures r.next.isCalling == c.isCalling
    ensures r.next.peer.Some? && r.next.peer.value.id == c.created && r.next.created == c.created + 1
    ensures media(c.audioOn, c.videoOn).Some? ==>
      && r.emitted == [Relay.Offer(DemoRoom, offer)]
      && r.next.peer.value.local == Some(offer)
      && r.next.localStream == media(c.audioOn, c.videoOn)
    ensures media(c.audioOn, c.videoOn).Some? ==>
      r.next.peer.value == Peer(c.created, Kinds(media(c.audioOn, c.videoOn).value), Some(offer), None, [])
    ensures media(c.audioOn, c.videoOn).None? ==> r.emitted == [] && r.next.localStream == c.localStream
    ensures r.next.orphaned == Orphans(c, media(c.audioOn, c.videoOn))
    ensures r.next == c.(peer := r.next.peer, created := r.next.created, localStream := r.next.localStream, orphaned := r.next.orphaned)
  {
    ResumeStartCall(NewPeer(c), media(c.audioOn, c.videoOn), offer)
  }

  /** `startCall` run without interruption is `createPeerConnection` run to
      completion followed, on success, by the offer as local description. */
  lemma StartCallIsCreatePeerConnection(c: Client, media: Media, offer: Value)
    ensures var s := CreatePeerConnection(c, c.audioOn, c.videoOn, media);
      StartCall(c, media, offer).next == if s.acquired then s.next.(peer := Some(s.next.peer.value.(local := Some(offer)))) else s.next
  {
  }

  /** The Start Call control, disabled while a call is up. */
  function PressStartCall(c: Client, media: Media, offer: Value): (r: Reaction)
    ensures c.isCalling ==> r == Reaction(c, [])
    ensures !c.isCalling ==> r == StartCall(c, media, offer)
  {
    if c.isCalling then Reaction(c, []) else StartCall(c, media, offer)
  }

  /** The `offer` handler resumed when its `getUserMedia` settles. On success
      the tracks are added to the connection the ref holds now, the offer is its
      remote description and the answer its local one, one `answer` is emitted
      and then `isCalling` is set; a rejection ends the handler. */
  function ResumeOffer(c: Client, granted: Option<seq<Track>>, offer: Value, answer: Value): (r: Reaction)
    requires c.peer.Some?
    ensures granted.None? ==> r == Reaction(c, [])
    ensures granted.Some? ==>
      && r.emitted == [Relay.Answer(DemoRoom, answer)]
      && r.next.localStream == granted
      && r.next.isCalling
      && r.next.peer == Some(c.peer.value.(sending := c.peer.value.sending + Kinds(granted.value),
                                           remote := Some(offer), local := Some(answer)))
    ensures r.next.orphaned == Orphans(c, granted)
    ensures r.next == c.(peer := r.next.peer, localStream := r.next.localStream, isCalling := r.next.isCalling, orphaned := r.next.orphaned)
  {
    if granted.Some? then
      var n := AttachMedia(c, granted);
      var p := n.peer.value.(remote := Some(offer), local := Some(answer));
      Reaction(n.(peer := Some(p), isCalling := true), [Relay.Answer(DemoRoom, answer)])
    else
      Reaction(c, [])
  }

  /** The `offer` handler run without interruption. It was registered once at
      mount, so the peer connection it builds asks for audio and video whatever
      the toggles say now. On success the offer is the remote description, the
      answer the local one, one `answer` is emitted and then `isCalling` is set. */
  function OnOffer(c: Client, offer: Value, media: Media, answer: Value): (r: Reaction)
    ensures r.next.peer.Some? && r.next.peer.value.id == c.created && r.next.created == c.created + 1
    ensures Valid(c) && c.peer.Some? ==> r.next.peer.value.id != c.peer.value.id
    ensures media(true, true).Some? ==>
      && r.emitted == [Relay.Answer(DemoRoom, answer)]
      && r.next.isCalling
      && r.next.peer.value.remote == Some(offer) && r.next.peer.value.local == Some(answer)
    ensures media(true, true).Some? ==>
      && r.next.localStream == media(true, true)
      && r.next.peer.value == Peer(c.created, Kinds(media(true, true).value), Some(answer), Some(offer), [])
    ensures media(true, true).None? ==> r.emitted == [] && r.next.isCalling == c.isCalling && r.next.localStream == c.localStream
    ensures r.next.orphaned == Orphans(c, media(true, true))
    ensures r.next == c.(peer := r.next.peer, created := r.next.created, localStream := r.next.localStream, isCalling := r.next.isCalling,
                         orphaned := r.next.orphaned)
  {
    ResumeOffer(NewPeer(c), media(true, true), offer, answer)
  }

  /** The `offer` handler run without interruption is `createPeerConnection`
      run to completion followed, on success, by both descriptions and `isCalling`. */
  lemma OnOfferIsCreatePeerConnection(c: Client, offer: Value, media: Media, answer: Value)
    ensures var s := CreatePeerConnection(c, true, true, media);
      OnOffer(c, offer, media, answer).next ==
        if s.acquired then s.next.(peer := Some(s.next.peer.value.(remote := Some(offer), local := Some(answer))), isCalling := true)
        else s.next
  {
  }

  /** A connection holding a local offer that no answer has been applied to
      yet (the `have-local-offer` signalling state). */
  predicate AwaitsAnswer(p: Peer) {
    p.local.Some? && p.remote.None?
  }

  /** The `answer` handler. With no peer connection `isCalling` is set at once.
      With one, `setRemoteDescription` is awaited first: it accepts only while
      the connection awaits an answer, and otherwise rejects, which ends the
      handler before `isCalling` is set. Nothing is emitted. */
  function OnAnswer(c: Client, answer: Value): (r: Reaction)
    ensures r.emitted == []
    ensures r.next.isCalling <==> c.isCalling || c.peer.None? || AwaitsAnswer(c.peer.value)
    ensures c.peer.None? ==> r.next == c.(isCalling := true)
    ensures c.peer.Some? && AwaitsAnswer(c.peer.value) ==>
      r.next == c.(peer := Some(c.peer.value.(remote := Some(answer))), isCalling := true)
    ensures c.peer.Some? && !AwaitsAnswer(c.peer.value) ==> r.next == c
  {
    match c.peer
    case Some(p) =>
      if AwaitsAnswer(p) then Reaction(c.(peer := Some(p.(remote := Some(answer))), isCalling := true), [])
      else Reaction(c, [])
    case None => Reaction(c.(isCalling := true), [])
  }

  /** Only the first answer to an offer is applied: once one has been, the
      connection no longer awaits an answer and a second one changes nothing. */
  lemma SecondAnswerIsIgnored(c: Client, first: Value, second: Value)
    requires c.peer.Some?
    ensures OnAnswer(OnAnswer(c, first).next, second) == Reaction(OnAnswer(c, first).next, [])
  {
  }

  /** A call whose media was refused still leaves a fresh connection behind,
      which awaits no answer: an answer arriving then is rejected and the screen
      does not enter a call. */
  lemma AnswerAfterRefusedMediaIsRejected(c: Client, media: Media, offer: Value, answer: Value)
    requires media(c.audioOn, c.videoOn).None?
    ensures var s := StartCall(c, media, offer).next;
      && s.peer.Some?
      && OnAnswer(s, answer) == Reaction(s, [])
      && OnAnswer(s, answer).next.isCalling == c.isCalling
  {
  }

  /** The `ice-candidate` handler: with no peer connection the candidate is
      dropped, not queued; a failing `addIceCandidate` is only logged. */
  function OnCandidate(c: Client, candidate: Value, addOk: bool): (r: Reaction)
    ensures r.emitted == []
    ensures c.peer.Some? && addOk ==> r.next == c.(peer := Some(c.peer.value.(candidates := c.peer.value.candidates + [candidate])))
    ensures c.peer.None? || !addOk ==> r.next == c
  {
    match c.peer
    case Some(p) =>
      if addOk then Reaction(c.(peer := Some(p.(candidates := p.candidates + [candidate]))), [])
      else Reaction(c, [])
    case None => Reaction(c, [])
  }

  /** The `chat-message` handler: the received line goes at the end of the list. */
  function OnChat(c: Client, message: Value, sender: Value): (r: Reaction)
    ensures r.emitted == []
    ensures |r.next.messages| == |c.messages| + 1 && r.next.messages[..|c.messages|] == c.messages
    ensures r.next.messages[|c.messages|] == Entry(message, sender)
    ensures r.next == c.(messages := r.next.messages)
  {
    Reaction(c.(messages := c.messages + [Entry(message, sender)]), [])
  }

  /** The dispatch table of the socket handlers, one per relayed event. Only an
      offer makes the screen emit (its answer) or build a peer connection, and
      only a chat line touches the message list. */
  function Receive(c: Client, env: Relay.Envelope, rtc: Rtc): (r: Reaction)
    ensures r.emitted == [] || r.emitted == [Relay.Answer(DemoRoom, rtc.answer)]
    ensures r.emitted != [] ==> env.OfferFrom?
    ensures !env.OfferFrom? ==> r.next.created == c.created && r.next.localStream == c.localStream
    ensures r.next.audioOn == c.audioOn && r.next.videoOn == c.videoOn && r.next.chatInput == c.chatInput
    ensures env.Chat? <==> r.next.messages != c.messages
  {
    match env
    case OfferFrom(offer, _) => OnOffer(c, offer, rtc.media, rtc.answer)
    case AnswerFrom(answer, _) => OnAnswer(c, answer)
    case CandidateFrom(candidate, _) => OnCandidate(c, candidate, rtc.addCandidateOk)
    case Chat(message, sender) => OnChat(c, message, sender)
  }

  /** `onicecandidate`: a local candidate is forwarded to the demo room only when it is non-null. */
  function OnLocalCandidate(c: Client, candidate: Option<Value>): (r: Reaction)
    ensures r.next == c
    ensures candidate.None? ==> r.emitted == []
    ensures candidate.Some? ==> r.emitted == [Relay.IceCandidate(DemoRoom, candidate.value)]
  {
    match candidate
    case Some(v) => Reaction(c, [Relay.IceCandidate(DemoRoom, v)])
    case None => Reaction(c, [])
  }

  /** `ontrack` of the root screen: the first stream of the event, if any, becomes the remote stream. */
  function OnTrack(c: Client, streams: seq<StreamId>): (r: Client)
    ensures |streams| == 0 ==> r == c
    ensures |streams| > 0 ==> r == c.(remoteStreams := [streams[0]])
  {
    if |streams| > 0 then c.(remoteStreams := [streams[0]]) else c
  }

  /** `ontrack` of the `src` screen: the whole stream list is stored, but only when it is non-empty. */
  function OnTrackList(c: Client, streams: seq<StreamId>): (r: Client)
    ensures |streams| == 0 ==> r == c
    ensures |streams| > 0 ==> r == c.(remoteStreams := streams)
  {
    if |streams| > 0 then c.(remoteStreams := streams) else c
  }

  /** The two screens agree on whether a remote stream is shown after a track
      event; the root screen keeps the first stream of what the `src` screen keeps. */
  lemma TrackVariantsAgree(c: Client, streams: seq<StreamId>)
    ensures OnTrack(c, streams).remoteStreams != [] <==> OnTrackList(c, streams).remoteStreams != []
    ensures |streams| > 0 ==> OnTrack(c, streams).remoteStreams == OnTrackList(c, streams).remoteStreams[..1]
    ensures OnTrack(c, streams).(remoteStreams := c.remoteStreams) == OnTrackList(c, streams).(remoteStreams := c.remoteStreams) == c
  {
  }

  /** `forEach(track => track.enabled = on)` over the tracks of one kind. */
  function SetEnabled(ts: seq<Track>, kind: Kind, on: bool): (r: seq<Track>)
    ensures |r| == |ts|
    ensures forall i :: 0 <= i < |ts| ==> r[i] == if ts[i].kind == kind then ts[i].(enabled := on) else ts[i]
  {
    if ts == [] then []
    else [if ts[0].kind == kind then ts[0].(enabled := on) else ts[0]] + SetEnabled(ts[1..], kind, on)
  }

  /** The flag that governs tracks of `kind`. */
  function FlagOf(c: Client, kind: Kind): bool {
    if kind == Audio then c.audioOn else c.videoOn
  }

  /** `toggleAudio` / `toggleVideo`: the flag is negated and every existing
      track of that kind takes the new value; tracks of the other kind, the
      call and the peer connection are untouched, and nothing is emitted. */
  function Toggle(c: Client, kind: Kind): (r: Client)
    ensures FlagOf(r, kind) == !FlagOf(c, kind)
    ensures kind == Audio ==> r.videoOn == c.videoOn
    ensures kind == Video ==> r.audioOn == c.audioOn
    ensures r.localStream.Some? <==> c.localStream.Some?
    ensures c.localStream.Some? ==> var ts := c.localStream.value; var us := r.localStream.value;
      && |us| == |ts|
      && (forall i :: 0 <= i < |ts| && ts[i].kind == kind ==> us[i] == ts[i].(enabled := !FlagOf(c, kind)))
      && (forall i :: 0 <= i < |ts| && ts[i].kind != kind ==> us[i] == ts[i])
    ensures r == c.(audioOn := r.audioOn, videoOn := r.videoOn, localStream := r.localStream)
  {
    var on := !FlagOf(c, kind);
    var stream := match c.localStream
      case Some(ts) => Some(SetEnabled(ts, kind, on))
      case None => None;
    if kind == Audio then c.(audioOn := on, localStream := stream)
    else c.(videoOn := on, localStream := stream)
  }

  /** Every local track is enabled exactly when the flag of its kind is on. */
  predicate InSync(c: Client) {
    c.localStream.Some? ==>
      forall i :: 0 <= i < |c.localStream.value| ==> c.localStream.value[i].enabled == FlagOf(c, c.localStream.value[i].kind)
  }

  /** Toggling keeps the tracks in step with the flags. */
  lemma ToggleKeepsSync(c: Client, kind: Kind)
    requires InSync(c)
    ensures InSync(Toggle(c, kind))
  {
  }

  /** While tracks follow the flags, toggling the same kind twice restores the state exactly. */
  lemma ToggleTwiceRestores(c: Client, kind: Kind)
    requires InSync(c)
    ensures Toggle(Toggle(c, kind), kind) == c
  {
    var r := Toggle(Toggle(c, kind), kind);
    if c.localStream.Some? {
      var ts := c.localStream.value;
      var us := r.localStream.value;
      assert |us| == |ts|;
      forall i | 0 <= i < |ts| ensures us[i] == ts[i] {
        if ts[i].kind == kind {
          assert ts[i].enabled == FlagOf(c, kind);
        }
      }
      assert us == ts;
    }
  }

  /** A `getUserMedia` that keeps its promise: only the requested kinds, every track live and enabled. */
  ghost predicate Honest(media: Media) {
    forall audio, video :: media(audio, video).Some? ==>
      forall i :: 0 <= i < |media(audio, video).value| ==>
        var t := media(audio, video).value[i];
        && t.enabled && !t.stopped
        && (t.kind == Audio ==> audio)
        && (t.kind == Video ==> video)
  }

  /** Starting a call with an honest media source keeps the tracks in step with the flags. */
  lemma StartCallKeepsSync(c: Client, media: Media, offer: Value)
    requires Honest(media) && InSync(c)
    ensures InSync(StartCall(c, media, offer).next)
  {
    var r := StartCall(c, media, offer);
    if media(c.audioOn, c.videoOn).Some? {
      var ts := media(c.audioOn, c.videoOn).value;
      assert r.next.localStream == Some(ts);
      forall i | 0 <= i < |ts| ensures ts[i].enabled == FlagOf(r.next, ts[i].kind) {
        assert ts[i] == media(c.audioOn, c.videoOn).value[i];
      }
    }
  }

  /** `startCall` reads the flags when the button is pressed, but its media
      arrives later. A toggle that runs in between flips the flag yet cannot
      reach tracks that do not exist yet, so the call sends enabled audio with
      audio off, even from an honest media source. */
  lemma ToggleWhileAwaitingMedia(c: Client, offer: Value)
    requires c.audioOn
    ensures var media: Media := (a, v) => if a then Some([Track(Audio, true, false)]) else Some([]);
      && Honest(media)
      && var r := ResumeStartCall(Toggle(NewPeer(c), Audio), media(c.audioOn, c.videoOn), offer);
      && r.emitted == [Relay.Offer(DemoRoom, offer)]
      && !r.next.audioOn
      && r.next.localStream == Some([Track(Audio, true, false)])
      && r.next.peer.value.sending == [Audio]
      && !InSync(r.next)
  {
    var media: Media := (a, v) => if a then Some([Track(Audio, true, false)]) else Some([]);
    var mid := Toggle(NewPeer(c), Audio);
    var r := ResumeStartCall(mid, media(c.audioOn, c.videoOn), offer);
    assert Kinds([Track(Audio, true, false)]) == [Audio];
    assert mid.peer.value.sending == [];
    assert r.next.localStream.value[0].enabled != FlagOf(r.next, Audio);
  }

  /** The offer handler puts its new connection in the ref before it awaits
      media, so a candidate relayed in that window is handed to a connection
      with no remote description yet. Whatever the WebRTC stack does with it
      there is final: the connection keeps exactly that outcome once the
      handler resumes. */
  lemma CandidateWhileAwaitingMedia(c: Client, x: Value, addOk: bool, granted: Option<seq<Track>>, offer: Value, answer: Value)
    ensures NewPeer(c).peer.value.remote.None?
    ensures var mid := OnCandidate(NewPeer(c), x, addOk).next;
      && mid.peer.Some?
      && var r := ResumeOffer(mid, granted, offer, answer);
      && r.next.peer.value.candidates == (if addOk then [x] else [])
      && (granted.Some? ==> r.next.peer.value.remote == Some(offer))
  {
  }

  /** Two runs that overlap share one ref: an offer handled while `startCall`
      awaits its media replaces the connection, and when `startCall` resumes it
      adds its tracks to the answering connection too and overwrites that
      connection's local answer with its own offer. */
  lemma OverlappingRunsShareThePeer(c: Client, media: Media, offer: Value, theirOffer: Value, answer: Value)
    requires media(c.audioOn, c.videoOn).Some? && media(true, true).Some?
    ensures var mid := OnOffer(NewPeer(c), theirOffer, media, answer).next;
      && mid.peer.Some?
      && var r := ResumeStartCall(mid, media(c.audioOn, c.videoOn), offer);
      && r.emitted == [Relay.Offer(DemoRoom, offer)]
      && r.next.isCalling
      && r.next.peer.value.id == c.created + 1
      && r.next.peer.value.sending == Kinds(media(true, true).value) + Kinds(media(c.audioOn, c.videoOn).value)
      && r.next.peer.value.local == Some(offer)
      && r.next.peer.value.remote == Some(theirOffer)
      && r.next.orphaned == mid.orphaned + media(true, true).value
  {
  }

  /** `setLocalStream` replaces a stream without stopping it, and the Start
      Call control stays enabled until an answer arrives. Pressing it twice
      leaves the first stream capturing outside the local stream: a mute does
      not reach its tracks and ending the call does not stop them. */
  lemma ReplacedStreamOutlivesEndCall(c: Client, media: Media, offer: Value)
    requires !c.isCalling && c.localStream.None?
    requires Honest(media) && media(c.audioOn, c.videoOn).Some?
    ensures var first := media(c.audioOn, c.videoOn).value;
      && var twice := PressStartCall(PressStartCall(c, media, offer).next, media, offer).next;
      && twice.orphaned == c.orphaned + first
      && Toggle(twice, Audio).orphaned == twice.orphaned
      && EndCall(twice).Ok? && EndCall(twice).value.orphaned == twice.orphaned
      && forall t :: t in first ==> t.enabled && !t.stopped
  {
    var first := media(c.audioOn, c.videoOn).value;
    var once := PressStartCall(c, media, offer).next;
    assert once.localStream == Some(first) && !once.isCalling;
    assert once.audioOn == c.audioOn && once.videoOn == c.videoOn;
    var twice := PressStartCall(once, media, offer).next;
    assert twice.orphaned == c.orphaned + first;
    forall t | t in first ensures t.enabled && !t.stopped {
      var i :| 0 <= i < |first| && first[i] == t;
    }
  }

  /** Answering ignores a muted microphone: with audio toggled off, an honest
      media source still hands an enabled audio track to the new connection. */
  lemma AnswerIgnoresMute(c: Client, offer: Value, answer: Value)
    requires !c.audioOn
    ensures var media: Media := (a, v) => if a then Some([Track(Audio, true, false)]) else Some([]);
      && Honest(media)
      && var r := OnOffer(c, offer, media, answer);
      && !r.next.audioOn
      && r.next.localStream == Some([Track(Audio, true, false)])
      && r.next.peer.value.sending == [Audio]
      && !InSync(r.next)
  {
    var media: Media := (a, v) => if a then Some([Track(Audio, true, false)]) else Some([]);
    var r := OnOffer(c, offer, media, answer);
    assert Kinds([Track(Audio, true, false)]) == [Audio];
    assert r.next.localStream.value[0].enabled != FlagOf(r.next, Audio);
  }

  /** `sendChatMessage`: blank input (per `trim`) does nothing; otherwise the
      untrimmed text is emitted with sender `User`, one `Me` entry is appended
      and the input is cleared. Shared by both screens. */
  function SendChat(c: Client): (r: Reaction)
    ensures IsBlank(c.chatInput) ==> r == Reaction(c, [])
    ensures !IsBlank(c.chatInput) ==>
      && r.emitted == [Relay.ChatMessage(DemoRoom, Text(c.chatInput), Text(ChatSender))]
      && r.next == c.(messages := c.messages + [Entry(Text(c.chatInput), Text(OwnLabel))], chatInput := "")
  {
    TrimShape(c.chatInput);
    if Trim(c.chatInput) != "" then
      Reaction(c.(messages := c.messages + [Entry(Text(c.chatInput), Text(OwnLabel))], chatInput := ""),
               [Relay.ChatMessage(DemoRoom, Text(c.chatInput), Text(ChatSender))])
    else Reaction(c, [])
  }

  /** `onChangeText={setChatInput}`. */
  function SetChatInput(c: Client, text: string): Client {
    c.(chatInput := text)
  }

  /** Typing a line and pressing Send emits it exactly when it is not blank,
      and a blank line stays in the input; either way a second press sends
      nothing, so a line goes out at most once. */
  lemma TypedLineSentOnce(c: Client, text: string)
    ensures var r := SendChat(SetChatInput(c, text));
      && (!IsBlank(text) <==> r.emitted != [])
      && (!IsBlank(text) ==> r.emitted == [Relay.ChatMessage(DemoRoom, Text(text), Text(ChatSender))] && r.next.chatInput == "")
      && (IsBlank(text) ==> r.next.chatInput == text)
      && SendChat(r.next).emitted == []
  {
    var r := SendChat(SetChatInput(c, text));
    if !IsBlank(text) {
      TrimShape("");
    }
  }

  /** `endCall` of the `src` screen: stops every local track and nothing else.
      Without a local stream `localStream.getTracks()` throws. */
  function EndCall(c: Client): (r: Result<Client>)
    ensures r.Ok? <==> c.localStream.Some?
    ensures r.Ok? ==> r.value.localStream.Some?
    ensures r.Ok? ==>
      var ts := c.localStream.value; var us := r.value.localStream.value;
      && |us| == |ts|
      && (forall i :: 0 <= i < |ts| ==> us[i] == ts[i].(stopped := true))
      && r.value == c.(localStream := r.value.localStream)
  {
    match c.localStream
    case Some(ts) => Ok(c.(localStream := Some(StopAll(ts))))
    case None => Fault("TypeError: cannot read property 'getTracks' of null")
  }

  /** Ending a call does not leave it: `isCalling` stays set, so the Start
      Call control stays disabled and pressing it does nothing. */
  lemma EndedCallCannotRestart(c: Client, media: Media, offer: Value)
    requires c.isCalling && c.localStream.Some?
    ensures EndCall(c).Ok? && EndCall(c).value.isCalling && EndCall(c).value.peer == c.peer
    ensures PressStartCall(EndCall(c).value, media, offer) == Reaction(EndCall(c).value, [])
  {
  }

  /** Stopping tracks that are already stopped changes nothing: ending twice is ending once. */
  lemma EndCallIdempotent(c: Client)
    requires c.localStream.Some?
    ensures EndCall(c).Ok? && EndCall(EndCall(c).value) == EndCall(c)
  {
    var ts := c.localStream.value;
    assert StopAll(StopAll(ts)) == StopAll(ts);
  }

  function StopAll(ts: seq<Track>): (r: seq<Track>)
    ensures |r| == |ts| && forall i :: 0 <= i < |ts| ==> r[i] == ts[i].(stopped := true)
  {
    if ts == [] then [] else [ts[0].(stopped := true)] + StopAll(ts[1..])
  }

  /** `applyConstraints({facingMode})` asked of the local track at index `track`. */
  datatype Constraint = Constraint(track: nat, facing: Facing)

  /** The outcome of `toggleCamera`: the next state and the constraint asked of the first video track. */
  datatype CameraStep = CameraStep(next: Client, request: Option<Constraint>)

  /** Index of the first video track, if any (`getVideoTracks()[0]`). */
  function FirstVideo(ts: seq<Track>): (r: Option<nat>)
    ensures r.None? <==> forall i :: 0 <= i < |ts| ==> ts[i].kind != Video
    ensures r.Some? ==> r.value < |ts| && ts[r.value].kind == Video && forall i :: 0 <= i < r.value ==> ts[i].kind != Video
  {
    if ts == [] then None
    else if ts[0].kind == Video then Some(0)
    else match FirstVideo(ts[1..])
      case Some(k) => Some(k + 1)
      case None => None
  }

  /** `toggleCamera` of the `src` screen: a no-op without a local stream;
      otherwise the camera flag flips, and the first video track, if there is
      one, is asked for `environment` when leaving the front camera and `user`
      when leaving the back one. */
  function ToggleCamera(c: Client): (r: CameraStep)
    ensures c.localStream.None? ==> r == CameraStep(c, None)
    ensures c.localStream.Some? ==> r.next == c.(frontCamera := !c.frontCamera)
    ensures r.request.Some? <==> c.localStream.Some? && exists i :: 0 <= i < |c.localStream.value| && c.localStream.value[i].kind == Video
    ensures r.request.Some? ==> var ts := c.localStream.value; var k := r.request.value.track;
      && k < |ts| && ts[k].kind == Video && (forall i :: 0 <= i < k ==> ts[i].kind != Video)
      && r.request.value.facing == if c.frontCamera then FacingEnvironment else FacingUser
  {
    match c.localStream
    case None => CameraStep(c, None)
    case Some(ts) =>
      var ask := match FirstVideo(ts)
        case Some(k) => Some(Constraint(k, if c.frontCamera then FacingEnvironment else FacingUser))
        case None => None;
      CameraStep(c.(frontCamera := !c.frontCamera), ask)
  }

  /** Switching the camera twice returns to the starting state, and the two
      switches ask the same track for opposite facings. */
  lemma ToggleCameraTwice(c: Client)
    requires c.localStream.Some?
    ensures var once := ToggleCamera(c); var twice := ToggleCamera(once.next);
      && twice.next == c
      && (once.request.Some? <==> twice.request.Some?)
      && (once.request.Some? ==>
            once.request.value.track == twice.request.value.track && once.request.value.facing != twice.request.value.facing)
  {
  }
}

=== FILE: chat.dfy ===
/**
 * The room chat screen: sending over its WebSocket, appending received
 * frames, loading history, and the day separators drawn while the list
 * renders. Dates are abstract: a `Day` is the formatted calendar day of a
 * timestamp, computed outside this model.
 */
module Chat {
  import opened Wrappers
  import opened Js

  /** A formatted calendar day (`DD-MMM-YYYY`). */
  type Day = string

  /** A chat message object as parsed from JSON. */
  datatype Message = Message(username: Option<string>, content: Value, createdAt: Option<Day>)

  /** The JSON frame `sendMessage` writes to the socket. */
  datatype Frame = Frame(event: string, content: string)

  /** The state of the `messages` variable: a list, `undefined` after a null
      history body, or a screen that has thrown while updating it. */
  datatype Feed = Items(items: seq<Message>) | UndefinedList | Faulted

  /** What `sendMessage` did: the frame handed to `send`, if any, and the input afterwards. */
  datatype Sent = Sent(frame: Option<Frame>, input: string)

  /** `socketRef.current.readyState`; the socket exists from the first effect on. */
  datatype ReadyState = Connecting | Open | Closing | Closed

  /** `sendMessage`. With no socket or blank input nothing happens. Otherwise
      `{event: "message", content: input.trim()}` goes to `send`, which throws
      while the socket is still connecting (so the input is not cleared);
      in any later state the frame is handed over and the input cleared. */
  function SendMessage(socket: Option<ReadyState>, input: string): (r: Result<Sent>)
    ensures r.Fault? <==> socket == Some(Connecting) && !IsBlank(input)
    ensures r.Ok? ==> (r.value.frame.Some? <==> socket.Some? && !IsBlank(input))
    ensures r.Ok? && r.value.frame.None? ==> r.value.input == input
    ensures r.Ok? && r.value.frame.Some? ==> r.value == Sent(Some(Frame("message", Trim(input))), "")
  {
    TrimShape(input);
    if socket.Some? && Trim(input) != "" then
      if socket.value == Connecting then Fault("INVALID_STATE_ERR")
      else Ok(Sent(Some(Frame("message", Trim(input))), ""))
    else Ok(Sent(None, input))
  }

  /** What goes on the wire is already trimmed and non-empty: sending it again
      as typed would produce the very same frame. */
  lemma SentContentIsTrimmed(socket: Option<ReadyState>, input: string)
    requires SendMessage(socket, input).Ok? && SendMessage(socket, input).value.frame.Some?
    ensures var c := SendMessage(socket, input).value.frame.value.content;
      && c != "" && !IsWhitespace(c[0]) && !IsWhitespace(c[|c| - 1])
      && SendMessage(socket, c) == SendMessage(socket, input)
  {
    var c := Trim(input);
    TrimShape(input);
    TrimIdempotent(input);
    TrimShape(c);
  }

  /** `onmessage`: `parsed` is `JSON.parse(event.data)`, `None` when it throws.
      A parsed frame goes at the end of the list; an unparseable one is logged
      and changes nothing; spreading an `undefined` list throws. */
  function OnFrame(feed: Feed, parsed: Option<Message>): (r: Feed)
    ensures parsed.None? ==> r == feed
    ensures parsed.Some? && feed.Items? ==> r == Items(feed.items + [parsed.value])
    ensures parsed.Some? && !feed.Items? ==> r == Faulted
  {
    match (feed, parsed)
    case (_, None) => feed
    case (Items(ms), Some(m)) => Items(ms + [m])
    case (_, Some(_)) => Faulted
  }

  /** The frames received in order, each parsed or not. */
  function OnFrames(feed: Feed, frames: seq<Option<Message>>): Feed
  {
    if frames == [] then feed else OnFrame(OnFrames(feed, frames[..|frames| - 1]), frames[|frames| - 1])
  }

  /** The messages among `frames` that parsed, in arrival order. */
  function Parsed(frames: seq<Option<Message>>): (ms: seq<Message>)
    ensures |ms| <= |frames|
  {
    if frames == [] then []
    else Parsed(frames[..|frames| - 1]) + (match frames[|frames| - 1] case Some(m) => [m] case None => [])
  }

  /** Over any run of frames, a list gains exactly the parsed messages, in
      order, at its end; an `undefined` list stays so until a message parses
      and then the screen has thrown. */
  lemma {:induction false} FramesAppendParsed(ms: seq<Message>, frames: seq<Option<Message>>)
    ensures OnFrames(Items(ms), frames) == Items(ms + Parsed(frames))
    ensures OnFrames(UndefinedList, frames) == if Parsed(frames) == [] then UndefinedList else Faulted
  {
    if frames != [] {
      var init := frames[..|frames| - 1];
      FramesAppendParsed(ms, init);
      if frames[|frames| - 1].Some? {
        var m := frames[|frames| - 1].value;
        assert ms + Parsed(init) + [m] == ms + (Parsed(init) + [m]);
      }
    }
  }

  /** The history response after `response.json()`. */
  datatype History = HistoryList(messages: seq<Message>) | HistoryNull | HistoryNotArray | HistoryFailed

  /** `Array.prototype.reverse`. */
  function Reverse<T>(s: seq<T>): (r: seq<T>)
    ensures |r| == |s|
    ensures forall i :: 0 <= i < |s| ==> r[i] == s[|s| - 1 - i]
  {
    if s == [] then [] else Reverse(s[1..]) + [s[0]]
  }

  /** Reversing twice gives the list back. */
  lemma ReverseInvolutive<T>(s: seq<T>)
    ensures Reverse(Reverse(s)) == s
  {
  }

  /** `setMessages(message?.reverse())`, with the fetch's `.catch`: a list
      replaces whatever was shown, reversed; `null` makes it `undefined`; a
      non-array (no `reverse`) or a failed fetch is only logged. */
  function ApplyHistory(feed: Feed, h: History): (r: Feed)
    ensures h.HistoryList? ==> r.Items? && Reverse(r.items) == h.messages
    ensures h.HistoryNull? ==> r == UndefinedList
    ensures h.HistoryNotArray? || h.HistoryFailed? ==> r == feed
  {
    match h
    case HistoryList(ms) =>
      ReverseInvolutive(ms);
      Items(Reverse(ms))
    case HistoryNull => UndefinedList
    case _ => feed
  }

  /** History replaces the list rather than merging into it: frames that
      arrived before the history response are gone once it lands. */
  lemma HistoryDropsEarlierFrames(ms: seq<Message>, early: seq<Message>)
    ensures ApplyHistory(Items(early), HistoryList(ms)) == ApplyHistory(Items([]), HistoryList(ms))
  {
  }

  /** The day `moment(item?.created_at)` formats to: a missing timestamp is now, so today. */
  function DayOf(m: Message, today: Day): (d: Day)
    ensures m.createdAt.Some? ==> d == m.createdAt.value
    ensures m.createdAt.None? ==> d == today
  {
    m.createdAt.GetOr(today)
  }

  /** The day item `i` is compared against: the previous item's, or today's for the first. */
  function PreviousDay(today: Day, items: seq<Message>, i: nat): Day
    requires i < |items|
  {
    if i == 0 then today else DayOf(items[i - 1], today)
  }

  /** The separators `renderItem` draws when the items are rendered in order:
      the render-scoped `todaysDate` starts as today and is overwritten with each
      item's day after the comparison. A separator precedes item `i` exactly
      when its day differs from the one before it, and it is labelled with the
      item's own day. */
  method Separators(today: Day, items: seq<Message>) returns (labels: seq<Option<Day>>)
    ensures |labels| == |items|
    ensures forall i :: 0 <= i < |items| ==> (labels[i].Some? <==> DayOf(items[i], today) != PreviousDay(today, items, i))
    ensures forall i :: 0 <= i < |items| && labels[i].Some? ==> labels[i].value == DayOf(items[i], today)
  {
    var todaysDate := today;
    labels := [];
    var i := 0;
    while i < |items|
      invariant 0 <= i <= |items|
      invariant |labels| == i
      invariant todaysDate == if i == 0 then today else DayOf(items[i - 1], today)
      invariant forall j :: 0 <= j < i ==> (labels[j].Some? <==> DayOf(items[j], today) != PreviousDay(today, items, j))
      invariant forall j :: 0 <= j < i && labels[j].Some? ==> labels[j].value == DayOf(items[j], today)
    {
      var nDate := DayOf(items[i], today);
      var show := todaysDate != nDate;
      todaysDate := nDate;
      labels := labels + [if show then Some(todaysDate) else None];
      i := i + 1;
    }
  }

  /** Undated messages count as today's: a list of them draws no separator at all. */
  method UndatedItemsHaveNoSeparator(today: Day, items: seq<Message>) returns (labels: seq<Option<Day>>)
    requires forall i :: 0 <= i < |items| ==> items[i].createdAt.None?
    ensures |labels| == |items| && forall i :: 0 <= i < |items| ==> labels[i].None?
  {
    labels := Separators(today, items);
  }
}

=== FILE: color.dfy ===
/**
 * `stringToColor` of the chat screen: a username is hashed with JavaScript
 * number arithmetic and the low three bytes of the hash, least significant
 * first, are printed as a `#rrggbb`-style colour.
 */
module Color {
  import opened Wrappers

  const TwoTo31: int := 0x8000_0000
  const TwoTo32: int := 0x1_0000_0000

  /** A UTF-16 code unit, what `charCodeAt` returns. */
  type CodeUnit = x: int | 0 <= x < 0x1_0000

  /** The code units of one character: itself, or a surrogate pair outside the basic plane. */
  function CharUnits(c: char): (u: seq<CodeUnit>)
    ensures 1 <= |u| <= 2
    ensures (c as int < 0x1_0000) <==> u == [c as int]
    ensures c as int >= 0x1_0000 ==>
      && |u| == 2 && 0xD800 <= u[0] < 0xDC00 <= u[1] < 0xE000
      && (u[0] as int - 0xD800) * 0x400 + (u[1] as int - 0xDC00) + 0x1_0000 == c as int
  {
    if c as int < 0x1_0000 then [c as int]
    else
      var v := c as int - 0x1_0000;
      [0xD800 + v / 0x400, 0xDC00 + v % 0x400]
  }

  /** The string as JavaScript stores it. */
  function Utf16(s: string): (u: seq<CodeUnit>)
    ensures |s| <= |u| <= 2 * |s|
  {
    if s == [] then [] else CharUnits(s[0]) + Utf16(s[1..])
  }

  /** ECMAScript `ToInt32` on an integral number: the value modulo 2^32 in two's complement. */
  function ToInt32(x: int): (r: int)
    ensures -TwoTo31 <= r < TwoTo31
    ensures r % TwoTo32 == x % TwoTo32
  {
    var m := x % TwoTo32;
    if m >= TwoTo31 then m - TwoTo32 else m
  }

  /** `x << 5`: the operand and the result both pass through `ToInt32`. */
  function ShiftLeft5(x: int): int {
    ToInt32(ToInt32(x) * 32)
  }

  /** One turn of the hashing loop, `hash = code + ((hash << 5) - hash)`. Only
      the shift wraps; the subtraction and addition are plain number arithmetic. */
  function HashStep(h: int, code: CodeUnit): int {
    code + (ShiftLeft5(h) - h)
  }

  /** The value of `hash` after the loop over `units`, left to right from 0.
      Each step moves it by at most 2^31 + 2^16: the shifted value is a 32-bit
      integer and the code unit is below 2^16. */
  function JsHash(units: seq<CodeUnit>): (h: int)
    ensures -|units| * (TwoTo31 + 0x1_0000) <= h <= |units| * (TwoTo31 + 0x1_0000)
  {
    if units == [] then 0 else HashStep(JsHash(units[..|units| - 1]), units[|units| - 1])
  }

  /** The 32-bit multiplicative string hash: h := 31·h + code unit, modulo 2^32. */
  function Hash31(units: seq<CodeUnit>): (h: int)
    ensures 0 <= h < TwoTo32
  {
    if units == [] then 0 else (31 * Hash31(units[..|units| - 1]) + units[|units| - 1]) % TwoTo32
  }

  lemma ModMultiple(a: int, k: int)
    ensures (a + k * TwoTo32) % TwoTo32 == a % TwoTo32
  {
  }

  /** Modulo 2^32 one JavaScript hashing step is the multiply-by-31 step. */
  lemma StepAgrees(h: int, code: CodeUnit)
    ensures HashStep(h, code) % TwoTo32 == (31 * (h % TwoTo32) + code) % TwoTo32
  {
    var t := ToInt32(h);
    var s := ShiftLeft5(h);
    var j := (t - h) / TwoTo32;
    assert t == h + j * TwoTo32;
    var k := (s - 32 * t) / TwoTo32;
    assert s == 32 * t + k * TwoTo32;
    assert HashStep(h, code) == code + 31 * h + (32 * j + k) * TwoTo32;
    ModMultiple(code + 31 * h, 32 * j + k);
    var q := h / TwoTo32;
    assert 31 * h == 31 * (h % TwoTo32) + (31 * q) * TwoTo32;
    ModMultiple(code + 31 * (h % TwoTo32), 31 * q);
  }

  /** The JavaScript loop computes the 32-bit multiplicative hash, up to multiples of 2^32. */
  lemma {:induction false} JsHashIsHash31(units: seq<CodeUnit>)
    ensures JsHash(units) % TwoTo32 == Hash31(units)
  {
    if units != [] {
      var n := |units| - 1;
      JsHashIsHash31(units[..n]);
      StepAgrees(JsHash(units[..n]), units[n]);
    }
  }

  /** For strings shorter than 2^21 code units every value `hash` takes is an
      integer below 2^53 in magnitude, the range in which number arithmetic is
      exact, so there the integer model is the double computation. */
  lemma JsHashExact(units: seq<CodeUnit>)
    requires |units| < 0x20_0000
    ensures forall k :: 0 <= k <= |units| ==> -0x20_0000_0000_0000 < JsHash(units[..k]) < 0x20_0000_0000_0000
  {
  }

  /** `(hash >> (i * 8)) & 0xff`: an arithmetic shift of the 32-bit value (floor
      division) and the low eight bits of the two's-complement result. */
  function ByteAt(h: int, i: nat): (b: int)
    requires i < 3
    ensures 0 <= b < 0x100
  {
    var d := if i == 0 then 1 else if i == 1 then 0x100 else 0x1_0000;
    (ToInt32(h) / d) % 0x100
  }

  /** The bytes read off `hash` are those of its value modulo 2^32. */
  lemma ByteAtIsByteOfMod(h: int, i: nat)
    requires i < 3
    ensures ByteAt(h, i) == ((h % TwoTo32) / (if i == 0 then 1 else if i == 1 then 0x100 else 0x1_0000)) % 0x100
  {
    var d := if i == 0 then 1 else if i == 1 then 0x100 else 0x1_0000;
    var m := h % TwoTo32;
    var t := ToInt32(h);
    if t != m {
      assert t == m - TwoTo32;
      var e := TwoTo32 / d;
      assert TwoTo32 == e * d;
      assert (m - e * d) / d == m / d - e;
      assert e % 0x100 == 0;
      ModShift(m / d, e / 0x100);
    }
  }

  lemma ModShift(a: int, k: int)
    ensures (a - k * 0x100) % 0x100 == a % 0x100
  {
  }

  const HexDigits: string := "0123456789abcdef"

  function HexDigit(d: nat): char
    requires d < 16
  {
    HexDigits[d]
  }

  /** `v.toString(16)` for a byte: lowercase, no leading zero. */
  function ToString16(v: nat): string
    requires v < 0x100
  {
    if v < 16 then [HexDigit(v)] else [HexDigit(v / 16), HexDigit(v % 16)]
  }

  /** `s.padStart(2, "0")`. */
  function PadStart2(s: string): string
  {
    if |s| >= 2 then s else seq(2 - |s|, _ => '0') + s
  }

  /** The two characters `stringToColor` writes for one byte. */
  function Hex2(v: nat): (r: string)
    requires v < 0x100
    ensures |r| == 2 && r[0] in HexDigits && r[1] in HexDigits
  {
    PadStart2(ToString16(v))
  }

  /** The value of a lowercase hexadecimal digit. */
  function HexValue(c: char): (d: nat)
    ensures d < 16
  {
    if '0' <= c <= '9' then c as int - '0' as int
    else if 'a' <= c <= 'f' then c as int - 'a' as int + 10
    else 0
  }

  /** Reads two hexadecimal digits back. */
  function ParseHex2(s: string): (v: nat)
    requires |s| == 2
    ensures v < 0x100
  {
    16 * HexValue(s[0]) + HexValue(s[1])
  }

  /** The two digits of every byte read back as the byte. */
  lemma Hex2RoundTrip(v: nat)
    requires v < 0x100
    ensures ParseHex2(Hex2(v)) == v
  {
    var hi := v / 16;
    var lo := v % 16;
    assert HexValue(HexDigit(hi)) == hi && HexValue(HexDigit(lo)) == lo by {
      HexDigitRoundTrip(hi);
      HexDigitRoundTrip(lo);
    }
    if v < 16 {
      assert Hex2(v) == ['0', HexDigit(v)];
    } else {
      assert Hex2(v) == [HexDigit(hi), HexDigit(lo)];
    }
  }

  lemma HexDigitRoundTrip(d: nat)
    requires d < 16
    ensures HexValue(HexDigit(d)) == d && HexDigit(d) in HexDigits
  {
  }

  /** `stringToColor(str)` on a string. */
  function StringToColor(str: string): (color: string)
    ensures |color| == 7 && color[0] == '#'
    ensures forall i :: 1 <= i < 7 ==> color[i] in HexDigits
  {
    var h := JsHash(Utf16(str));
    Hex2RoundTrip(ByteAt(h, 0));
    Hex2RoundTrip(ByteAt(h, 1));
    Hex2RoundTrip(ByteAt(h, 2));
    "#" + Hex2(ByteAt(h, 0)) + Hex2(ByteAt(h, 1)) + Hex2(ByteAt(h, 2))
  }

  /** The colour spells, two digits per byte, the low three bytes of the
      32-bit multiplicative hash of the string, least significant byte first. */
  lemma ColorEncodesHash(str: string)
    ensures var color := StringToColor(str); var h := Hash31(Utf16(str));
      && ParseHex2(color[1..3]) == h % 0x100
      && ParseHex2(color[3..5]) == (h / 0x100) % 0x100
      && ParseHex2(color[5..7]) == (h / 0x1_0000) % 0x100
  {
    var units := Utf16(str);
    var h := JsHash(units);
    JsHashIsHash31(units);
    ByteAtIsByteOfMod(h, 0);
    ByteAtIsByteOfMod(h, 1);
    ByteAtIsByteOfMod(h, 2);
    Hex2RoundTrip(ByteAt(h, 0));
    Hex2RoundTrip(ByteAt(h, 1));
    Hex2RoundTrip(ByteAt(h, 2));
    var color := StringToColor(str);
    assert color[1..3] == Hex2(ByteAt(h, 0));
    assert color[3..5] == Hex2(ByteAt(h, 1));
    assert color[5..7] == Hex2(ByteAt(h, 2));
  }

  /** The empty string is black. */
  lemma EmptyIsBlack()
    ensures StringToColor("") == "#000000"
  {
    assert Utf16("") == [];
    var h := JsHash([]);
    assert h == 0;
    assert ByteAt(h, 0) == 0 && ByteAt(h, 1) == 0 && ByteAt(h, 2) == 0;
    assert ToString16(0) == "0";
    assert Hex2(0) == "00";
    assert StringToColor("") == "#" + "00" + "00" + "00";
  }

  /** The call site passes `item?.username`; a message without one makes
      `str.length` throw during rendering. */
  function ColorFor(username: Option<string>): (r: Result<string>)
    ensures r.Ok? <==> username.Some?
    ensures r.Ok? ==> r.value == StringToColor(username.value)
  {
    match username
    case Some(name) => Ok(StringToColor(name))
    case None => Fault("TypeError: cannot read property 'length' of undefined")
  }
}

=== FILE: createroom.dfy ===
/** The create-room screen: the blank-name guard and what it does with the server's reply. */
module CreateRoom {
  import opened Wrappers
  import opened Js
  import opened Navigation
  import Rooms

  /** The `detail` the chat API answers for a duplicate name. */
  const Conflict: string := "Room with this name already exists"

  /** The create request's outcome after `response.json()`; `Body` is a JSON object. */
  datatype Reply = NetworkError | NotJson | NullBody | Body(detail: Option<string>, id: Value, name: Value)

  /** What `handleCreateRoom` did. */
  datatype Outcome = Outcome(alert: Option<Alert>, posted: Option<string>, wentBack: bool, chat: Option<ChatParams>)

  /** `handleCreateRoom`. A blank name raises an error alert and sends nothing.
      Otherwise the name is posted as typed; a duplicate-name reply raises an
      alert; any other object goes back and then to Chat with the new room's id
      and name; a `null` reply goes back and then throws on `newRoom.id`, which
      the `catch` only logs, as it does a failed request. */
  function HandleCreateRoom(username: string, roomName: string, reply: Reply): (o: Outcome)
    ensures IsBlank(roomName) ==> o == Outcome(Some(Alert("Error", Some("Please enter a valid room name."))), None, false, None)
    ensures !IsBlank(roomName) ==> o.posted == Some(roomName)
    ensures o.chat.Some? <==> !IsBlank(roomName) && reply.Body? && reply.detail != Some(Conflict)
    ensures o.chat.Some? ==> o.wentBack && o.chat.value == ChatParams(username, reply.id, reply.name)
    ensures o.wentBack <==> !IsBlank(roomName) && (reply.NullBody? || (reply.Body? && reply.detail != Some(Conflict)))
    ensures o.alert.Some? <==> IsBlank(roomName) || (reply.Body? && reply.detail == Some(Conflict))
  {
    TrimShape(roomName);
    if Trim(roomName) == "" then
      Outcome(Some(Alert("Error", Some("Please enter a valid room name."))), None, false, None)
    else
      match reply
      case Body(detail, id, name) =>
        if detail == Some(Conflict) then
          Outcome(Some(Alert("The room name already exists.", None)), Some(roomName), false, None)
        else
          Outcome(None, Some(roomName), true, Some(ChatParams(username, id, name)))
      case NullBody => Outcome(None, Some(roomName), true, None)
      case _ => Outcome(None, Some(roomName), false, None)
  }

  /** An alert and a Chat navigation never happen together, and a created
      room opens the same chat as pressing that room in the room list. */
  lemma CreatedRoomOpensLikeSelection(username: string, roomName: string, reply: Reply, createdAt: int)
    ensures var o := HandleCreateRoom(username, roomName, reply);
      && !(o.alert.Some? && o.chat.Some?)
      && (o.chat.Some? ==> o.chat.value == Rooms.SelectRoom(username, Rooms.Room(reply.id, reply.name, createdAt)))
  {
  }
}

=== FILE: draggable.dfy ===
/**
 * The draggable local-video overlay: where it starts, and where a drag
 * leaves it. The release handler was created once, so it reads the position
 * and the window size captured at the first render, not the last drop or the
 * current window.
 */
module Draggable {
  import opened Wrappers

  /** Where a candidate coordinate below zero snaps to, and the default start. */
  const Fallback: real := 5.0

  datatype Point = Point(x: real, y: real)

  /** `{x: props.x ?? 5, y: props.y ?? 5}`: only a missing prop falls back, so a 0 stays 0. */
  function InitialPosition(px: Option<real>, py: Option<real>): (p: Point)
    ensures px.Some? ==> p.x == px.value
    ensures px.None? ==> p.x == Fallback
    ensures py.Some? ==> p.y == py.value
    ensures py.None? ==> p.y == Fallback
  {
    Point(px.GetOr(Fallback), py.GetOr(Fallback))
  }

  /** `v < 0 ? 5 : v > limit ? limit : v`. */
  function ClampAxis(v: real, limit: real): (r: real)
    ensures v < 0.0 ==> r == Fallback
    ensures 0.0 <= v && v > limit ==> r == limit
    ensures 0.0 <= v <= limit ==> r == v
  {
    if v < 0.0 then Fallback else if v > limit then limit else v
  }

  /** A drop never lands left of or above the origin, and inside a window at
      least 5 wide it lands within it; in a narrower one a negative candidate
      still snaps to 5, past the edge. */
  lemma ClampBounds(v: real, limit: real)
    ensures 0.0 <= ClampAxis(v, limit) || (0.0 <= v && limit < 0.0)
    ensures limit >= Fallback ==> 0.0 <= ClampAxis(v, limit) <= limit
    ensures 0.0 <= limit < Fallback && v < 0.0 ==> ClampAxis(v, limit) > limit
  {
  }

  /** The component's state. The release handler was created at the first
      render, so it reads the position and the window size of that render:
      `captured` and `bounds`. `last` is the rendered `lastPosition` and `pan`
      the animated offset. */
  datatype Drag = Drag(captured: Point, bounds: Point, last: Point, pan: Point)

  /** The first render in a window of the given size. */
  function Mount(px: Option<real>, py: Option<real>, width: real, height: real): (d: Drag)
    ensures d.captured == d.last == InitialPosition(px, py) && d.pan == Point(0.0, 0.0)
    ensures d.bounds == Point(width, height)
  {
    var p := InitialPosition(px, py);
    Drag(p, Point(width, height), p, Point(0.0, 0.0))
  }

  /** `onPanResponderMove`: the pan offset follows the gesture; nothing else moves. */
  function Move(d: Drag, dx: real, dy: real): (r: Drag)
    ensures r.pan == Point(dx, dy)
    ensures r.captured == d.captured && r.bounds == d.bounds && r.last == d.last
  {
    d.(pan := Point(dx, dy))
  }

  /** Where the view is drawn: `lastPosition` shifted by the pan; at rest, `lastPosition` itself. */
  function Shown(d: Drag): (p: Point)
    ensures d.pan == Point(0.0, 0.0) ==> p == d.last
    ensures p.x - d.pan.x == d.last.x && p.y - d.pan.y == d.last.y
  {
    Point(d.last.x + d.pan.x, d.last.y + d.pan.y)
  }

  /** `onPanResponderRelease`: the drop is the captured position plus the
      gesture, each axis clamped on its own against the captured window size,
      and the pan is reset. */
  function Release(d: Drag, dx: real, dy: real): (r: Drag)
    ensures r.captured == d.captured && r.bounds == d.bounds && r.pan == Point(0.0, 0.0)
    ensures r.last.x == ClampAxis(d.captured.x + dx, d.bounds.x)
    ensures r.last.y == ClampAxis(d.captured.y + dy, d.bounds.y)
  {
    d.(last := Point(ClampAxis(d.captured.x + dx, d.bounds.x), ClampAxis(d.captured.y + dy, d.bounds.y)),
       pan := Point(0.0, 0.0))
  }

  /** Once released, the view is drawn exactly where it was dropped, and a
      drop inside a window at least 5 wide and high lies inside the window. */
  lemma ReleaseSettles(d: Drag, dx: real, dy: real)
    ensures var r := Release(d, dx, dy);
      && Shown(r) == r.last
      && (d.bounds.x >= Fallback ==> 0.0 <= r.last.x <= d.bounds.x)
      && (d.bounds.y >= Fallback ==> 0.0 <= r.last.y <= d.bounds.y)
  {
    ClampBounds(d.captured.x + dx, d.bounds.x);
    ClampBounds(d.captured.y + dy, d.bounds.y);
  }

  /** A series of completed drags. */
  function Drags(d: Drag, gestures: seq<Point>): Drag
  {
    if gestures == [] then d
    else Release(Drags(d, gestures[..|gestures| - 1]), gestures[|gestures| - 1].x, gestures[|gestures| - 1].y)
  }

  /** Every drop is the starting position plus the latest gesture: earlier
      drops are forgotten, and the captured position and size never change. */
  lemma {:induction false} DropsForgetEarlierDrops(d: Drag, gestures: seq<Point>)
    requires |gestures| > 0
    ensures var r := Drags(d, gestures); var g := gestures[|gestures| - 1];
      && r.captured == d.captured && r.bounds == d.bounds
      && r.last == Point(ClampAxis(d.captured.x + g.x, d.bounds.x), ClampAxis(d.captured.y + g.y, d.bounds.y))
  {
    if |gestures| > 1 {
      DropsForgetEarlierDrops(d, gestures[..|gestures| - 1]);
    }
  }

  /** The overlay jumps on a second drag: mid-drag it is drawn at the first
      drop plus the gesture, but it lands at the start plus the gesture. */
  lemma SecondDragJumps()
    ensures var d0 := Mount(None, None, 400.0, 800.0);
      && var d1 := Release(Move(d0, 100.0, 0.0), 100.0, 0.0);
      && Shown(Move(d1, 50.0, 0.0)) == Point(155.0, 5.0)
      && Release(Move(d1, 50.0, 0.0), 50.0, 0.0).last == Point(55.0, 5.0)
  {
  }
}

=== FILE: js.dfy ===
/**
 * The few ECMAScript notions the screens rely on: an opaque JSON value that
 * is carried around but never inspected, and the whitespace rule of
 * `String.prototype.trim`.
 */
module Js {

  /**
   * A JSON value as the relay and the screens see it. `Opaque` stands for a
   * structured value (a session description, an ICE candidate) that is only
   * ever compared for identity; `Text` is a JSON string.
   */
  datatype Value = Undefined | Text(text: string) | Opaque(tag: nat)

  /** WhiteSpace and LineTerminator code points, the set that `trim` strips. */
  predicate IsWhitespace(c: char) {
    || c == '\t' || c == '\n' || c == '\U{000B}' || c == '\U{000C}' || c == '\r'
    || c == ' ' || c == '\U{00A0}' || c == '\U{1680}'
    || ('\U{2000}' <= c <= '\U{200A}')
    || c == '\U{2028}' || c == '\U{2029}' || c == '\U{202F}' || c == '\U{205F}'
    || c == '\U{3000}' || c == '\U{FEFF}'
  }

  /** Every character is whitespace (the empty string included). */
  predicate IsBlank(s: string) {
    forall i :: 0 <= i < |s| ==> IsWhitespace(s[i])
  }

  /** The first index at or after `i` that is not whitespace, or `|s|`. */
  function SkipForward(s: string, i: nat): (r: nat)
    requires i <= |s|
    ensures i <= r <= |s|
    ensures forall j :: i <= j < r ==> IsWhitespace(s[j])
    ensures r < |s| ==> !IsWhitespace(s[r])
    decreases |s| - i
  {
    if i < |s| && IsWhitespace(s[i]) then SkipForward(s, i + 1) else i
  }

  /** The least index `r >= lo` such that `s[r..e]` is all whitespace. */
  function SkipBackward(s: string, lo: nat, e: nat): (r: nat)
    requires lo <= e <= |s|
    ensures lo <= r <= e
    ensures forall j :: r <= j < e ==> IsWhitespace(s[j])
    ensures r > lo ==> !IsWhitespace(s[r - 1])
    decreases e - lo
  {
    if e > lo && IsWhitespace(s[e - 1]) then SkipBackward(s, lo, e - 1) else e
  }

  /** How many leading characters `trim` drops. */
  function TrimOffset(s: string): nat
  {
    SkipForward(s, 0)
  }

  /** `s.trim()`: what is left of `s` once its leading and trailing whitespace
      is dropped. Exactly a blank prefix of length `TrimOffset(s)` and a blank
      suffix are cut off, and what remains neither starts nor ends with whitespace. */
  function Trim(s: string): (r: string)
    ensures TrimOffset(s) + |r| <= |s| && r == s[TrimOffset(s)..TrimOffset(s) + |r|]
    ensures IsBlank(s[..TrimOffset(s)]) && IsBlank(s[TrimOffset(s) + |r|..])
    ensures r != [] ==> !IsWhitespace(r[0]) && !IsWhitespace(r[|r| - 1])
  {
    var lo := TrimOffset(s);
    var hi := SkipBackward(s, lo, |s|);
    assert hi > lo ==> s[lo..hi][0] == s[lo] && s[lo..hi][hi - lo - 1] == s[hi - 1];
    s[lo..hi]
  }

  /** `s.trim()` is falsy exactly when `s` is all whitespace. */
  lemma TrimShape(s: string)
    ensures Trim(s) == [] <==> IsBlank(s)
  {
    if Trim(s) != [] {
      assert !IsWhitespace(s[TrimOffset(s)]);
    }
  }

  /** The reference definition of `trim`: whenever `s` is a blank prefix, a
      piece with no whitespace at either end and a blank suffix, in that
      order, `trim` returns exactly that piece. With the contract of `Trim`
      this makes the decomposition unique. */
  lemma TrimUnique(s: string, a: string, m: string, b: string)
    requires s == a + m + b && IsBlank(a) && IsBlank(b)
    requires m != [] && !IsWhitespace(m[0]) && !IsWhitespace(m[|m| - 1])
    ensures Trim(s) == m
  {
    var lo := TrimOffset(s);
    assert s[|a|] == m[0];
    assert forall j :: 0 <= j < |a| ==> s[j] == a[j];
    assert lo == |a|;
    var hi := SkipBackward(s, lo, |s|);
    var e := |a| + |m|;
    assert s[e - 1] == m[|m| - 1];
    assert forall j :: e <= j < |s| ==> s[j] == b[j - e];
    assert hi == e;
    assert s[lo..hi] == m;
  }

  /** Trimming twice trims no further. */
  lemma TrimIdempotent(s: string)
    ensures Trim(Trim(s)) == Trim(s)
  {
    var t := Trim(s);
    if t != [] {
      assert t == [] + t + [];
      TrimUnique(t, [], t, []);
    } else {
      assert Trim(t) == [];
    }
  }
}

=== FILE: login.dfy ===
/** The login screen of the `src` tree: username normalisation and registration. */
module Login {
  import opened Wrappers
  import opened Js

  /** `username.replaceAll(' ', '_')`: only U+0020 is replaced; tabs and other
      whitespace stay as they are. */
  function Normalise(s: string): (r: string)
    ensures |r| == |s| && ' ' !in r
    ensures forall i :: 0 <= i < |s| ==> r[i] == (if s[i] == ' ' then '_' else s[i])
  {
    if s == [] then [] else [if s[0] == ' ' then '_' else s[0]] + Normalise(s[1..])
  }

  /** A name is left alone exactly when it has no space; in particular normalising is idempotent. */
  lemma NormaliseFixpoints(s: string)
    ensures Normalise(s) == s <==> ' ' !in s
    ensures Normalise(Normalise(s)) == Normalise(s)
  {
    if ' ' in s {
      var i :| 0 <= i < |s| && s[i] == ' ';
      assert Normalise(s)[i] != s[i];
    }
  }

  /** What the registration request came to, after `res.json()`. */
  datatype Reply = NetworkError | NotJson | JsonBody

  /** What `handleLogin` did: the name posted, the name navigated with, and the input afterwards. */
  datatype Outcome = Outcome(posted: Option<string>, navigated: Option<string>, input: string)

  /** `handleLogin`: a blank name does nothing. Otherwise the normalised name is
      posted; any JSON reply navigates to Rooms with the name as typed and clears
      the input, while a failed request or an unparseable reply is only logged. */
  function HandleLogin(username: string, reply: Reply): (o: Outcome)
    ensures IsBlank(username) ==> o == Outcome(None, None, username)
    ensures !IsBlank(username) ==> o.posted == Some(Normalise(username))
    ensures !IsBlank(username) && reply == JsonBody ==> o.navigated == Some(username) && o.input == ""
    ensures reply != JsonBody ==> o.navigated.None? && o.input == username
  {
    TrimShape(username);
    if Trim(username) == "" then Outcome(None, None, username)
    else if reply == JsonBody then Outcome(Some(Normalise(username)), Some(username), "")
    else Outcome(Some(Normalise(username)), None, username)
  }

  /** The name the next screen is opened with is the raw form of the registered
      one: normalising what was navigated with gives exactly what was posted. */
  lemma NavigatedNameMatchesPosted(username: string, reply: Reply)
    ensures var o := HandleLogin(username, reply);
      o.navigated.Some? ==> o.posted == Some(Normalise(o.navigated.value)) && !IsBlank(o.navigated.value)
  {
  }
}

=== FILE: navigation.dfy ===
/** The navigation parameters the account and room screens pass along. */
module Navigation {
  import opened Js
  import opened Wrappers

  /** `navigation.navigate('Chat', {username, roomId, roomName})`. */
  datatype ChatParams = ChatParams(username: string, roomId: Value, roomName: Value)

  /** `Alert.alert(title)` or `Alert.alert(title, message)`. */
  datatype Alert = Alert(title: string, message: Option<string>)
}

=== FILE: relay.dfy ===
/**
 * The socket.io signalling relay: a room registry plus the `connection`
 * handler's per-event routing rules. The relay never looks inside a payload;
 * it copies named fields into an outbound envelope and sends that to every
 * other socket of the room the inbound event names.
 */
module Relay {
  import opened Js
  import opened Wrappers

  type SocketId = string
  type RoomId = string

  /** Which sockets are in which room (socket.io's adapter state). */
  type Registry = map<RoomId, set<SocketId>>

  /** The event names the `connection` handler registers a listener for. */
  const HandledNames: set<string> := {"join", "offer", "answer", "ice-candidate", "chat-message", "disconnect"}

  /** The name of an event the server has no listener for. */
  type UnhandledName = n: string | n !in HandledNames witness "screenshare"

  /** An inbound event as a client emits it, with the fields the handler reads. */
  datatype Event =
      /** The socket connected; socket.io puts it in a room named by its own id. */
    | Connect
    | Join(room: RoomId)
    | Offer(room: RoomId, offer: Value)
    | Answer(room: RoomId, answer: Value)
    | IceCandidate(room: RoomId, candidate: Value)
    | ChatMessage(room: RoomId, message: Value, sender: Value)
      /** The transport closed; socket.io raises this itself. */
    | Disconnect
      /** An event name with no handler on the server, such as `screenshare`. */
    | Unhandled(name: UnhandledName, room: RoomId, payload: Value)

  /** An outbound event as a recipient receives it. */
  datatype Envelope =
    | OfferFrom(offer: Value, from: SocketId)
    | AnswerFrom(answer: Value, from: SocketId)
    | CandidateFrom(candidate: Value, from: SocketId)
    | Chat(message: Value, sender: Value)

  datatype Delivery = Delivery(to: SocketId, envelope: Envelope)

  /** The registry after one event, and what the event sent to whom. */
  datatype Outcome = Outcome(registry: Registry, deliveries: set<Delivery>)

  /** The sockets currently in `room`; a room nobody joined is empty. */
  function Members(reg: Registry, room: RoomId): set<SocketId>
  {
    if room in reg then reg[room] else {}
  }

  /** Events whose handler forwards a signalling payload with a `from` field. */
  predicate IsSignal(ev: Event) {
    ev.Offer? || ev.Answer? || ev.IceCandidate?
  }

  /** Events whose handler emits into `ev.room`. */
  predicate IsRouted(ev: Event) {
    IsSignal(ev) || ev.ChatMessage?
  }

  /** `socket.to(room).emit(...)`: one copy of `env` for every member of `room` but the sender. */
  function FanOut(reg: Registry, room: RoomId, sender: SocketId, env: Envelope): (out: set<Delivery>)
    ensures forall d :: d in out <==> d.envelope == env && d.to in Members(reg, room) && d.to != sender
  {
    set r | r in Members(reg, room) - {sender} :: Delivery(r, env)
  }

  /** `socket.join(room)`: set insertion, creating the room when needed. */
  function JoinRoom(reg: Registry, s: SocketId, room: RoomId): (r: Registry)
    ensures forall q :: Members(r, q) == if q == room then Members(reg, q) + {s} else Members(reg, q)
  {
    reg[room := Members(reg, room) + {s}]
  }

  /** socket.io's automatic leave of every room when a socket disconnects. */
  function LeaveAll(reg: Registry, s: SocketId): (r: Registry)
    ensures forall q :: Members(r, q) == Members(reg, q) - {s}
  {
    map q | q in reg :: reg[q] - {s}
  }

  /** The envelope the handler for `ev` builds; `None` for events that emit nothing. */
  function EnvelopeFor(ev: Event, sender: SocketId): Option<Envelope>
  {
    match ev
    case Offer(_, offer) => Some(OfferFrom(offer, sender))
    case Answer(_, answer) => Some(AnswerFrom(answer, sender))
    case IceCandidate(_, candidate) => Some(CandidateFrom(candidate, sender))
    case ChatMessage(_, message, who) => Some(Chat(message, who))
    case _ => None
  }

  /** The `connection` handler: the registry change and the deliveries caused by
      one inbound event from `sender`. */
  function Handle(reg: Registry, sender: SocketId, ev: Event): (o: Outcome)
    ensures forall d :: d in o.deliveries ==> d.to != sender
    ensures !ev.Connect? && !ev.Join? && !ev.Disconnect? ==> o.registry == reg
  {
    match ev
    case Connect => Outcome(JoinRoom(reg, sender, sender), {})
    case Join(room) => Outcome(JoinRoom(reg, sender, room), {})
    case Disconnect => Outcome(LeaveAll(reg, sender), {})
    case Unhandled(_, _, _) => Outcome(reg, {})
    case _ => Outcome(reg, FanOut(reg, ev.room, sender, EnvelopeFor(ev, sender).value))
  }

  /** `join` adds exactly the sender to exactly the named room and sends nothing. */
  lemma JoinAddsSender(reg: Registry, s: SocketId, room: RoomId)
    ensures var o := Handle(reg, s, Join(room));
      && o.deliveries == {}
      && Members(o.registry, room) == Members(reg, room) + {s}
      && forall q :: q != room ==> Members(o.registry, q) == Members(reg, q)
  {
  }

  /** Joining a room one is already in changes nothing, so a repeated join is idempotent. */
  lemma JoinIdempotent(reg: Registry, s: SocketId, room: RoomId)
    ensures s in Members(reg, room) ==> Handle(reg, s, Join(room)).registry == reg
    ensures var once := Handle(reg, s, Join(room)).registry;
      Handle(once, s, Join(room)).registry == once
  {
    if s in Members(reg, room) {
      assert Members(reg, room) + {s} == reg[room];
    }
    var once := Handle(reg, s, Join(room)).registry;
    assert Members(once, room) + {s} == once[room];
  }

  /** `offer`, `answer` and `ice-candidate` reach every other member of `ev.room`
      and nobody else, each carrying the payload unchanged and `from` set to the
      sender; the `room` field is not forwarded. */
  lemma SignalFanOut(reg: Registry, s: SocketId, ev: Event)
    requires IsSignal(ev)
    ensures var o := Handle(reg, s, ev);
      && (forall r :: (exists d :: d in o.deliveries && d.to == r) <==> r in Members(reg, ev.room) && r != s)
      && (forall d :: d in o.deliveries ==> d.envelope.from == s && match ev {
            case Offer(_, x) => d.envelope == OfferFrom(x, s)
            case Answer(_, x) => d.envelope == AnswerFrom(x, s)
            case IceCandidate(_, x) => d.envelope == CandidateFrom(x, s)
            case _ => false
          })
  {
    var o := Handle(reg, s, ev);
    var env := EnvelopeFor(ev, s).value;
    forall r | r in Members(reg, ev.room) && r != s
      ensures exists d :: d in o.deliveries && d.to == r
    {
      assert Delivery(r, env) in o.deliveries;
    }
  }

  /** `chat-message` reaches every other member of `ev.room` and nobody else,
      carrying `message` and `sender` unchanged and no `from` field. */
  lemma ChatFanOut(reg: Registry, s: SocketId, ev: Event)
    requires ev.ChatMessage?
    ensures var o := Handle(reg, s, ev);
      && (forall r :: (exists d :: d in o.deliveries && d.to == r) <==> r in Members(reg, ev.room) && r != s)
      && (forall d :: d in o.deliveries ==> d.envelope == Chat(ev.message, ev.sender))
  {
    var o := Handle(reg, s, ev);
    forall r | r in Members(reg, ev.room) && r != s
      ensures exists d :: d in o.deliveries && d.to == r
    {
      assert Delivery(r, Chat(ev.message, ev.sender)) in o.deliveries;
    }
  }

  /** Emitting into a room with no other member delivers nothing and is not an error. */
  lemma LonelyRoomDropsSilently(reg: Registry, s: SocketId, ev: Event)
    requires IsRouted(ev) && Members(reg, ev.room) <= {s}
    ensures Handle(reg, s, ev) == Outcome(reg, {})
  {
  }

  /** Routing looks only at the other members of `ev.room`: whether the sender
      itself joined that room makes no difference. */
  lemma SenderMembershipIrrelevant(reg: Registry, s: SocketId, ev: Event)
    requires IsRouted(ev)
    ensures Handle(JoinRoom(reg, s, ev.room), s, ev).deliveries == Handle(reg, s, ev).deliveries
    ensures Handle(LeaveAll(reg, s), s, ev).deliveries == Handle(reg, s, ev).deliveries
  {
  }

  /** An event the server has no handler for changes nothing and sends nothing. */
  lemma UnhandledIsNoop(reg: Registry, s: SocketId, name: UnhandledName, room: RoomId, payload: Value)
    ensures Handle(reg, s, Unhandled(name, room, payload)) == Outcome(reg, {})
  {
  }

  /** `disconnect` only logs: nothing is sent to any room, and the socket is in no room afterwards. */
  lemma DisconnectIsSilent(reg: Registry, s: SocketId)
    ensures var o := Handle(reg, s, Disconnect);
      && o.deliveries == {}
      && forall q :: Members(o.registry, q) == Members(reg, q) - {s}
  {
  }

  /** After a socket has left, nothing routed by anybody reaches it. */
  lemma DepartedReceivesNothing(reg: Registry, gone: SocketId, s: SocketId, ev: Event)
    ensures forall d :: d in Handle(LeaveAll(reg, gone), s, ev).deliveries ==> d.to != gone
  {
  }

  /** A socket's id names a room it is in from its connection on, so an event
      a client routes to another socket's id reaches that socket alone. */
  lemma SocketIdRoomReachesIt(reg: Registry, a: SocketId, b: SocketId, ev: Event)
    requires a != b && IsRouted(ev) && ev.room == b && Members(reg, b) == {}
    ensures var joined := Handle(reg, b, Connect);
      && joined.deliveries == {}
      && Handle(joined.registry, a, ev).deliveries == {Delivery(b, EnvelopeFor(ev, a).value)}
  {
    var joined := Handle(reg, b, Connect).registry;
    assert Members(joined, b) == {b};
    var out := Handle(joined, a, ev).deliveries;
    assert Delivery(b, EnvelopeFor(ev, a).value) in out;
  }

  /** A run of the relay: the registry after every event of `trace`, in order. */
  function Run(reg: Registry, trace: seq<(SocketId, Event)>): Registry
  {
    if trace == [] then reg
    else Handle(Run(reg, trace[..|trace| - 1]), trace[|trace| - 1].0, trace[|trace| - 1].1).registry
  }

  /** `s` entered `room` at step `i`, by joining it or, for the room named by
      its own id, by connecting, and did not disconnect after it. */
  predicate JoinedAndStayed(trace: seq<(SocketId, Event)>, s: SocketId, room: RoomId, i: int)
  {
    && 0 <= i < |trace|
    && (trace[i] == (s, Join(room)) || (room == s && trace[i] == (s, Connect)))
    && forall j :: i < j < |trace| ==> trace[j] != (s, Disconnect)
  }

  /** Starting from no rooms, a socket is in a room exactly when some `join` of
      that room by it, or its connection when the room bears its id, is not
      followed by its disconnect, whatever the interleaving. */
  lemma {:induction false} MembershipHistory(trace: seq<(SocketId, Event)>, s: SocketId, room: RoomId)
    ensures s in Members(Run(map[], trace), room) <==> exists i :: JoinedAndStayed(trace, s, room, i)
  {
    if trace != [] {
      var n := |trace| - 1;
      var prefix := trace[..n];
      MembershipHistory(prefix, s, room);
      var before := Run(map[], prefix);
      assert Run(map[], trace) == Handle(before, trace[n].0, trace[n].1).registry;
      if trace[n] == (s, Join(room)) || (room == s && trace[n] == (s, Connect)) {
        assert JoinedAndStayed(trace, s, room, n);
      } else if trace[n] == (s, Disconnect) {
        forall i | 0 <= i < |trace| ensures !JoinedAndStayed(trace, s, room, i) {
          if i < n { assert trace[n] == (s, Disconnect); }
        }
      } else {
        assert s in Members(Run(map[], trace), room) <==> s in Members(before, room);
        forall i | 0 <= i < n ensures JoinedAndStayed(trace, s, room, i) <==> JoinedAndStayed(prefix, s, room, i) {
          assert trace[i] == prefix[i];
          if JoinedAndStayed(prefix, s, room, i) {
            forall j | i < j < |trace| ensures trace[j] != (s, Disconnect) {
              if j < n { assert trace[j] == prefix[j]; }
            }
          }
        }
        assert !JoinedAndStayed(trace, s, room, n);
      }
    }
  }
}

=== FILE: rooms.dfy ===
/** The room list: rooms fetched from the chat API, newest first, and the
    navigation a room selection makes. Timestamps are abstract integers (the
    milliseconds `new Date(created_at)` stands for). */
module Rooms {
  import opened Js
  import opened Navigation

  datatype Room = Room(id: Value, name: Value, createdAt: int)

  /** The rooms request's outcome after `response.json()`. */
  datatype Reply = NetworkError | NotJson | NotArray | RoomList(rooms: seq<Room>)

  /** Newest first: no room is newer than one listed before it. */
  predicate NewestFirst(s: seq<Room>) {
    forall i, j :: 0 <= i < j < |s| ==> s[i].createdAt >= s[j].createdAt
  }

  /** The rooms created at time `t`, in list order. */
  function CreatedAt(s: seq<Room>, t: int): (r: seq<Room>)
    ensures |r| <= |s|
  {
    if s == [] then [] else (if s[0].createdAt == t then [s[0]] else []) + CreatedAt(s[1..], t)
  }

  /** Places `x` before the first room no newer than it, so it precedes the
      rooms of equal age that came after it in the input. */
  function Insert(x: Room, s: seq<Room>): (r: seq<Room>)
    ensures |r| == |s| + 1
    ensures multiset(r) == multiset(s) + multiset{x}
  {
    if s == [] || s[0].createdAt <= x.createdAt then [x] + s
    else
      assert s == [s[0]] + s[1..];
      [s[0]] + Insert(x, s[1..])
  }

  /** Inserting into a newest-first list keeps it newest first. */
  lemma {:induction false} InsertKeepsOrder(x: Room, s: seq<Room>)
    requires NewestFirst(s)
    ensures NewestFirst(Insert(x, s))
  {
    if s == [] || s[0].createdAt <= x.createdAt {
      assert Insert(x, s) == [x] + s;
    } else {
      var rest := Insert(x, s[1..]);
      InsertKeepsOrder(x, s[1..]);
      assert Insert(x, s) == [s[0]] + rest;
      forall k | 0 <= k < |rest| ensures s[0].createdAt >= rest[k].createdAt {
        assert rest[k] in multiset(rest);
        assert rest[k] in multiset(s[1..]) + multiset{x};
        if rest[k] != x {
          assert rest[k] in s[1..];
        }
      }
    }
  }

  /** `data.sort((a, b) => new Date(b.created_at) - new Date(a.created_at))`:
      JavaScript's sort is stable, so this is the stable descending sort. */
  function SortNewestFirst(rooms: seq<Room>): (r: seq<Room>)
    ensures NewestFirst(r)
    ensures multiset(r) == multiset(rooms)
  {
    if rooms == [] then []
    else
      assert rooms == [rooms[0]] + rooms[1..];
      InsertKeepsOrder(rooms[0], SortNewestFirst(rooms[1..]));
      Insert(rooms[0], SortNewestFirst(rooms[1..]))
  }

  lemma CreatedAtCons(a: Room, s: seq<Room>, t: int)
    ensures CreatedAt([a] + s, t) == (if a.createdAt == t then [a] else []) + CreatedAt(s, t)
  {
    assert ([a] + s)[1..] == s;
  }

  lemma {:induction false} InsertKeepsTies(x: Room, s: seq<Room>, t: int)
    ensures CreatedAt(Insert(x, s), t) == (if x.createdAt == t then [x] else []) + CreatedAt(s, t)
  {
    if s == [] || s[0].createdAt <= x.createdAt {
      CreatedAtCons(x, s, t);
    } else {
      InsertKeepsTies(x, s[1..], t);
      CreatedAtCons(s[0], Insert(x, s[1..]), t);
      CreatedAtCons(s[0], s[1..], t);
      assert [s[0]] + s[1..] == s;
    }
  }

  /** The sort is stable: rooms created at the same time keep their fetched order. */
  lemma {:induction false} SortIsStable(rooms: seq<Room>, t: int)
    ensures CreatedAt(SortNewestFirst(rooms), t) == CreatedAt(rooms, t)
  {
    if rooms != [] {
      SortIsStable(rooms[1..], t);
      InsertKeepsTies(rooms[0], SortNewestFirst(rooms[1..]), t);
      CreatedAtCons(rooms[0], rooms[1..], t);
      assert [rooms[0]] + rooms[1..] == rooms;
    }
  }

  /** `fetchRooms`: the list starts empty and is replaced by the sorted rooms
      only when the reply is an array; any other outcome is caught and logged. */
  function FetchRooms(reply: Reply): (shown: seq<Room>)
    ensures reply.RoomList? ==> NewestFirst(shown) && multiset(shown) == multiset(reply.rooms)
    ensures !reply.RoomList? ==> shown == []
  {
    match reply
    case RoomList(rooms) => SortNewestFirst(rooms)
    case _ => []
  }

  /** Pressing a room goes to Chat with that room's id and name and the username unchanged. */
  function SelectRoom(username: string, room: Room): (p: ChatParams)
    ensures p.username == username && p.roomId == room.id && p.roomName == room.name
  {
    ChatParams(username, room.id, room.name)
  }

  /** The first room on the list is a newest fetched room, and pressing it opens that room. */
  lemma TopRoomIsNewest(username: string, rooms: seq<Room>)
    requires |rooms| > 0
    ensures var shown := FetchRooms(RoomList(rooms));
      && |shown| == |rooms|
      && shown[0] in rooms
      && (forall r :: r in rooms ==> r.createdAt <= shown[0].createdAt)
      && SelectRoom(username, shown[0]) == ChatParams(username, shown[0].id, shown[0].name)
  {
    var shown := FetchRooms(RoomList(rooms));
    assert |multiset(shown)| == |multiset(rooms)|;
    assert shown[0] in multiset(shown);
    forall r | r in rooms ensures r.createdAt <= shown[0].createdAt {
      assert r in multiset(rooms);
      var k :| 0 <= k < |shown| && shown[k] == r;
    }
  }
}

=== FILE: session.dfy ===
/**
 * Two video-call screens talking through the relay: the A-offers / B-answers
 * handshake and the chat and candidate exchanges, composed step by step from
 * the controller's functions and the relay's `Handle`.
 */
module Session {
  import opened Wrappers
  import opened Js
  import Relay
  import opened Call

  /** With exactly `a` and `b` in the demo room, whatever `a` emits there goes to `b` alone. */
  lemma RoutedToPeer(reg: Relay.Registry, a: Relay.SocketId, b: Relay.SocketId, ev: Relay.Event)
    requires a != b && Relay.Members(reg, DemoRoom) == {a, b}
    requires Relay.IsRouted(ev) && ev.room == DemoRoom
    ensures Relay.Handle(reg, a, ev) == Relay.Outcome(reg, {Relay.Delivery(b, Relay.EnvelopeFor(ev, a).value)})
  {
    var out := Relay.Handle(reg, a, ev).deliveries;
    var d := Relay.Delivery(b, Relay.EnvelopeFor(ev, a).value);
    assert d in out;
    forall e | e in out ensures e == d {
      assert e.to in {a, b} - {a};
    }
  }

  /** A presses Start Call, the relay carries the offer to B, B answers, the
      relay carries the answer back and A applies it: both screens end in a call,
      each holding the other's description as its remote one. Requires only that
      media is granted on both sides. */
  lemma {:induction false} Handshake(reg: Relay.Registry, a: Relay.SocketId, b: Relay.SocketId,
                                     ca: Client, cb: Client, media: Media, offer: Value, answer: Value)
    requires a != b && Relay.Members(reg, DemoRoom) == {a, b}
    requires !ca.isCalling
    requires media(ca.audioOn, ca.videoOn).Some? && media(true, true).Some?
    ensures var ra := PressStartCall(ca, media, offer);
      && ra.emitted == [Relay.Offer(DemoRoom, offer)]
      && var o1 := Relay.Handle(reg, a, ra.emitted[0]);
      && o1 == Relay.Outcome(reg, {Relay.Delivery(b, Relay.OfferFrom(offer, a))})
      && var rb := Receive(cb, Relay.OfferFrom(offer, a), Rtc(media, answer, true));
      && rb.emitted == [Relay.Answer(DemoRoom, answer)]
      && var o2 := Relay.Handle(reg, b, rb.emitted[0]);
      && o2 == Relay.Outcome(reg, {Relay.Delivery(a, Relay.AnswerFrom(answer, b))})
      && var ra2 := Receive(ra.next, Relay.AnswerFrom(answer, b), Rtc(media, answer, true));
      && ra2.emitted == []
      && ra2.next.isCalling && rb.next.isCalling
      && ra2.next.peer.Some? && rb.next.peer.Some?
      && ra2.next.peer.value.local == rb.next.peer.value.remote == Some(offer)
      && ra2.next.peer.value.remote == rb.next.peer.value.local == Some(answer)
  {
    var ra := PressStartCall(ca, media, offer);
    RoutedToPeer(reg, a, b, Relay.Offer(DemoRoom, offer));
    assert {a, b} == {b, a};
    RoutedToPeer(reg, b, a, Relay.Answer(DemoRoom, answer));
  }

  /** Two freshly mounted screens join the demo room through the relay, and the
      handshake then takes them both into a call. */
  lemma MountedHandshake(a: Relay.SocketId, b: Relay.SocketId, media: Media, offer: Value, answer: Value)
    requires a != b && media(true, true).Some?
    ensures var reg := Relay.Run(map[], [(a, Mount().emitted[0]), (b, Mount().emitted[0])]);
      && Relay.Members(reg, DemoRoom) == {a, b}
      && var ra := PressStartCall(Mount().next, media, offer);
      && var rb := Receive(Mount().next, Relay.OfferFrom(offer, a), Rtc(media, answer, true));
      && var ra2 := Receive(ra.next, Relay.AnswerFrom(answer, b), Rtc(media, answer, true));
      && ra2.next.isCalling && rb.next.isCalling
  {
    var trace := [(a, Mount().emitted[0]), (b, Mount().emitted[0])];
    var reg := Relay.Run(map[], trace);
    assert trace[..1] == [(a, Relay.Join(DemoRoom))];
    assert trace[..1][..0] == [];
    var r1 := Relay.Run(map[], trace[..1]);
    assert Relay.Run(map[], trace[..1][..0]) == map[];
    assert r1 == Relay.Handle(map[], a, Relay.Join(DemoRoom)).registry;
    assert r1 == Relay.JoinRoom(map[], a, DemoRoom);
    assert reg == Relay.JoinRoom(r1, b, DemoRoom);
    assert Relay.Members(r1, DemoRoom) == {a};
    assert Relay.Members(reg, DemoRoom) == {a, b};
    Handshake(reg, a, b, Mount().next, Mount().next, media, offer, answer);
  }

  /** A local candidate of A reaches B, but if B has no peer connection yet it
      is dropped there for good: no queue keeps it for later. */
  lemma EarlyCandidateIsLost(reg: Relay.Registry, a: Relay.SocketId, b: Relay.SocketId,
                             ca: Client, cb: Client, x: Value, rtc: Rtc)
    requires a != b && Relay.Members(reg, DemoRoom) == {a, b}
    requires cb.peer.None?
    ensures var ea := OnLocalCandidate(ca, Some(x)).emitted;
      && ea == [Relay.IceCandidate(DemoRoom, x)]
      && Relay.Handle(reg, a, ea[0]).deliveries == {Relay.Delivery(b, Relay.CandidateFrom(x, a))}
      && Receive(cb, Relay.CandidateFrom(x, a), rtc) == Reaction(cb, [])
  {
    RoutedToPeer(reg, a, b, Relay.IceCandidate(DemoRoom, x));
  }

  /** A chat line sent by A with B and C in the room is appended at the end of
      both their lists, as sent by `User`, and A keeps a `Me` copy; A receives nothing. */
  lemma ChatReachesOthers(reg: Relay.Registry, a: Relay.SocketId, b: Relay.SocketId, c: Relay.SocketId,
                          ca: Client, cb: Client, cc: Client, rtc: Rtc)
    requires Relay.Members(reg, DemoRoom) == {a, b, c} && a != b && a != c && b != c
    requires !IsBlank(ca.chatInput)
    ensures var ra := SendChat(ca);
      && |ra.emitted| == 1
      && var out := Relay.Handle(reg, a, ra.emitted[0]).deliveries;
      && var env := Relay.Chat(Text(ca.chatInput), Text(ChatSender));
      && out == {Relay.Delivery(b, env), Relay.Delivery(c, env)}
      && Receive(cb, env, rtc).next.messages == cb.messages + [Entry(Text(ca.chatInput), Text(ChatSender))]
      && Receive(cc, env, rtc).next.messages == cc.messages + [Entry(Text(ca.chatInput), Text(ChatSender))]
      && ra.next.messages == ca.messages + [Entry(Text(ca.chatInput), Text(OwnLabel))]
  {
    var ra := SendChat(ca);
    var env := Relay.Chat(Text(ca.chatInput), Text(ChatSender));
    var out := Relay.Handle(reg, a, ra.emitted[0]).deliveries;
    assert Relay.Delivery(b, env) in out && Relay.Delivery(c, env) in out;
    forall e | e in out ensures e == Relay.Delivery(b, env) || e == Relay.Delivery(c, env) {
      assert e.to in {a, b, c} - {a};
    }
  }
}

=== FILE: wrappers.dfy ===
/** Failure-compatible wrappers shared by every module of the model. */
module Wrappers {

  /** A JavaScript value that may be null or undefined (`None`). */
  datatype Option<+T> = None | Some(value: T) {

    /** The `??` operator: the value when present, the default otherwise. */
    function GetOr(default: T): T {
      match this
      case Some(v) => v
      case None => default
    }
  }

  /** The outcome of a handler that may throw: `Fault` is an uncaught exception. */
  datatype Result<+T> = Ok(value: T) | Fault(reason: string)
}
